=== FILE: README.md ===
# Accelerometer viewer: acquisition and smoothing core in Dafny

A model of the data path of VisualizacionAcelerometro, a Swing viewer for a
three-axis accelerometer read by an Arduino over a serial link. One line of
text per sample arrives on the serial port. The serial data source assembles
the line from the bytes it reads and hands it to the main window.
`AccDataParser` splits the line on its separator (a tab by default) and
converts the first three fields from raw 10-bit ADC codes into g. Each axis
then goes through its own `EMAFilter`, an exponential moving average
S(t) = alpha·Y(t) + (1 − alpha)·S(t − 1). The window draws the smoothed
triple and shows a connection indicator. An alpha slider and an alpha text
box set the filters' coefficient. The start and stop buttons connect and
disconnect the data source.

Modules, one per source class, plus one for the Java library behaviour those classes rely on:

- `JavaText`: the Java library behaviour the core depends on:
  - `String.trim`;
  - `String.split`, with a literal separator and empty trailing fields removed;
  - `Double.parseDouble` for plain decimal numerals;
  - `Double.toString` for the slider's hundredths;
  - the `double`-to-`int` cast, which truncates and saturates at 32 bits.

  Doubles are modelled as `real`.
- `EMAFilter`: the filter's state machine (`New`, `Filter`, `SetAlpha`). It
  also has a run over a sequence of samples, and the closed form of that run
  as a weighted sum of the samples.
- `AccDataParser`: the separator state, the calibration `ToG` and its
  inverse, and `Parse`. `None` stands for the `null` that `parse` returns.
- `DataCollectionInterface`: the `CONNECTION_RESULT` enumeration and the
  promises of the data-source interface, as predicates.
- `SerialDataCollection`: the serial data source.
  - The RXTX library is replaced by outcomes. How opening a port ends and
    how closing the stream ends are parameters.
  - The bytes an event can read are an input sequence. Its end stands for
    `read()` returning -1.
  - `SerialEvent` is the loop as written, checked against the reference
    definition `LineEvent`.
- `VisualizacionFrame`: `receiveNewData`, the two alpha handlers, the start
  and stop buttons, window closing, and one data-available event carried
  through to the window.

Behaviour of the code as written that the model keeps and proves:

- **Success without a connection.** `connect` reports `CONNECTION_OK` when
  the port is owned by another program or is not a serial port. In both cases
  the source stays disconnected (`OkWithoutConnection`).
- **Unterminated input is delivered.** A line is handed over when a newline
  is read, and also when the stream runs dry (`UnterminatedDelivered`).
  - So a final line with no newline still reaches the window.
- **Buffer overflow.** A line longer than the 1024-byte buffer raises an
  index error that nothing catches, and nothing is delivered
  (`OverflowExactly`).
- **Calibration landmarks.** The calibration maps code 0 to −3 g, code 512
  to 17/11 g and code 1024 to 67/11 g (`ToGLandmarks`, `ParseMidScale`,
  `ParseFullScale`).
  - So 512, the middle of the ADC range, does not read 0 g, and 1024 does
    not read 3 g.
- **The text box and the slider.** `JSlider.setValue` runs the slider's
  change handler at once when the value changes, and only then.
  - A typed alpha survives only when its truncated hundredths are already the
    slider's position (`TypedAlphaKept`).
  - Otherwise it is replaced by that position (`TypedAlphaOverridden`).
  - Neither handler checks the range, so the filters can still be given an
    alpha outside [0, 1] (`OutOfRangeAlphaReachable`, `TextOutOfRangeDesync`).

## Model

Paths are relative to the repository root.

| member | source | states |
|---|---|---|
| JavaText.TrimLeading | src/ec/espol/visualizacionacelerometro/data/AccDataParser.java:67-69 | the result is a suffix of the input; everything dropped is at or below U+0020; the result starts with a character above U+0020 or is empty |
| JavaText.TrimTrailing | src/ec/espol/visualizacionacelerometro/data/AccDataParser.java:67-69 | the result is a prefix of the input; everything dropped is at or below U+0020; the result ends with a character above U+0020 or is empty |
| JavaText.Trim | src/ec/espol/visualizacionacelerometro/data/AccDataParser.java:67-69 | `trim` never lengthens a field and leaves no character at or below U+0020 at either end |
| JavaText.TrimPadded | src/ec/espol/visualizacionacelerometro/data/AccDataParser.java:67-69 | whitespace of any length padded on both sides of a field does not change its trim |
| JavaText.TrimIdempotent | src/ec/espol/visualizacionacelerometro/data/AccDataParser.java:67-69 | trimming a trimmed field changes nothing |
| JavaText.IndexOfFirst | src/ec/espol/visualizacionacelerometro/data/AccDataParser.java:64 | the separator search returns an index where the separator occurs and none occurs earlier; it returns nothing exactly when the separator occurs nowhere |
| JavaText.DropTrailingEmpty | src/ec/espol/visualizacionacelerometro/data/AccDataParser.java:64 | `split` keeps a prefix of the fields, removes only empty fields, and the last field kept is non-empty |
| JavaText.Split | src/ec/espol/visualizacionacelerometro/data/AccDataParser.java:64 | an empty separator gives one field per character, and one empty field for the empty string; otherwise the fields are a prefix of the raw fields between separators, and the raw fields dropped are all empty; a separator that occurs leaves no empty last field, and one that does not occur gives the whole line as the only field |
| JavaText.JoinRawSplit | src/ec/espol/visualizacionacelerometro/data/AccDataParser.java:64 | joining the raw fields of a line with the separator gives back the line |
| JavaText.RawSplitJoin | src/ec/espol/visualizacionacelerometro/data/AccDataParser.java:64 | splitting fields joined by a separator gives back the fields, if no field contains the separator's first character |
| JavaText.RawSplitAppend | src/ec/espol/visualizacionacelerometro/data/AccDataParser.java:64 | appending a separator and any text to joined fields keeps those fields first and appends the fields of the added text |
| JavaText.ParseNumeral | src/ec/espol/visualizacionacelerometro/data/AccDataParser.java:67-69 | `parseDouble` reads a non-empty string of decimal digits as the number it denotes |
| JavaText.ParseNonNumeric | src/ec/espol/visualizacionacelerometro/data/AccDataParser.java:67-69 | a trimmed string that starts with anything other than a digit, a sign or a point is not a number |
| JavaText.ParseDecimalShape | src/ec/espol/visualizacionacelerometro/data/AccDataParser.java:67-69 | a numeral that reads as a number is an optional sign, digits, and optionally a point and more digits, with at least one digit: nothing else is read |
| JavaText.ParseDoubleShape | src/ec/espol/visualizacionacelerometro/data/AccDataParser.java:67-69 | text that `parseDouble` accepts is, once trimmed, an optional sign, digits, and optionally a point and more digits, with at least one digit |
| JavaText.NumeralChars | src/ec/espol/visualizacionacelerometro/data/AccDataParser.java:67-69 | after its first character a numeral that reads as a number holds only digits and at most one point |
| JavaText.OnePoint | src/ec/espol/visualizacionacelerometro/data/AccDataParser.java:67-69 | a numeral that reads as a number has no second point |
| JavaText.ParseTrailingLetter | src/ec/espol/visualizacionacelerometro/data/AccDataParser.java:67-69 | "12abc" is not a number, so a field with trailing garbage makes the line fail |
| JavaText.ParseSecondPoint | src/ec/espol/visualizacionacelerometro/data/AccDataParser.java:67-69 | "1.2.3" is not a number |
| JavaText.ParseTrailingSign | src/ec/espol/visualizacionacelerometro/data/AccDataParser.java:67-69 | "5-" is not a number |
| JavaText.ParseInnerBlank | src/ec/espol/visualizacionacelerometro/data/AccDataParser.java:67-69 | "1 2" is not a number: only blanks at the ends are trimmed |
| JavaText.ParseDouble | src/ec/espol/visualizacionacelerometro/GUI/VisualizacionFrame.java:494 | empty or blank text is not a number |
| JavaText.ParseDoublePadded | src/ec/espol/visualizacionacelerometro/GUI/VisualizacionFrame.java:494 | blanks around a text never change what `parseDouble` reads |
| JavaText.ParseSignedPoint | src/ec/espol/visualizacionacelerometro/GUI/VisualizacionFrame.java:494 | an optional sign, digits, a point and digits, with at least one digit, read as the whole part plus the fraction, negated after a minus |
| JavaText.ParseSignedDigits | src/ec/espol/visualizacionacelerometro/data/AccDataParser.java:67-69 | an optional sign and at least one digit read as the integer they denote, negated after a minus |
| JavaText.ParseNegativeQuarter | src/ec/espol/visualizacionacelerometro/GUI/VisualizacionFrame.java:494 | "-0.25" reads as −0.25 |
| JavaText.ParsePlusThree | src/ec/espol/visualizacionacelerometro/GUI/VisualizacionFrame.java:494 | "+3" reads as 3 |
| JavaText.ParsePaddedFraction | src/ec/espol/visualizacionacelerometro/GUI/VisualizacionFrame.java:494 | " 12.5 " reads as 12.5 |
| JavaText.FormatNat | src/ec/espol/visualizacionacelerometro/GUI/VisualizacionFrame.java:483 | the decimal numeral of a natural is non-empty, made of digits, denotes the natural, and has no leading zero |
| JavaText.ParseFormatNat | src/ec/espol/visualizacionacelerometro/data/AccDataParser.java:67-69 | reading back the decimal numeral of a natural gives the natural |
| JavaText.FormatHundredths | src/ec/espol/visualizacionacelerometro/GUI/VisualizacionFrame.java:479-483 | the text for a slider position has 3 or 4 characters: a digit, the point, then digits ("0.0" to "1.0"), and has 3 exactly when the position is a multiple of 10, so a trailing zero is never written ("0.5", not "0.50") |
| JavaText.ParseFormatHundredths | src/ec/espol/visualizacionacelerometro/GUI/VisualizacionFrame.java:479-483 | reading back the text written for slider position k gives exactly k/100 |
| JavaText.IntValue | src/ec/espol/visualizacionacelerometro/GUI/VisualizacionFrame.java:498-499 | `intValue` truncates toward zero and saturates at the 32-bit bounds |
| AccDataParser.New | src/ec/espol/visualizacionacelerometro/data/AccDataParser.java:44-46 | a new parser splits on a tab |
| AccDataParser.SetSaparator | src/ec/espol/visualizacionacelerometro/data/AccDataParser.java:48-54 | `getSeparator` returns the separator last set |
| AccDataParser.ToGClosedForm | src/ec/espol/visualizacionacelerometro/data/AccDataParser.java:71-73 | the calibration with the class's constants is g = 25·r/2816 − 3 |
| AccDataParser.CalibrationRoundTrip | src/ec/espol/visualizacionacelerometro/data/AccDataParser.java:71-73 | the calibration is invertible: raw to g to raw, and g to raw to g, are identities |
| AccDataParser.ToGStrictlyIncreasing | src/ec/espol/visualizacionacelerometro/data/AccDataParser.java:71-73 | a larger raw code always reads as a larger acceleration |
| AccDataParser.ToGLandmarks | src/ec/espol/visualizacionacelerometro/data/AccDataParser.java:33-42 | code 0 reads −3 g, 337.92 reads 0 g, 675.84 reads 3 g, 512 reads 17/11 g, 1024 reads 67/11 g |
| AccDataParser.ParseFields | src/ec/espol/visualizacionacelerometro/data/AccDataParser.java:66-83 | all or nothing: a result exactly when there are at least three fields and each of the first three is a number, and then the three calibrated values in x, y, z order |
| AccDataParser.Parse | src/ec/espol/visualizacionacelerometro/data/AccDataParser.java:61-84 | fewer than three fields after the split gives `null`; a result always has three values |
| AccDataParser.EmptyFieldFails | src/ec/espol/visualizacionacelerometro/data/AccDataParser.java:67-69 | an empty field is not a number |
| AccDataParser.ParseFieldsDropTrailing | src/ec/espol/visualizacionacelerometro/data/AccDataParser.java:64-69 | removing the empty trailing fields never changes the result of the parse |
| AccDataParser.ParseViaRawSplit | src/ec/espol/visualizacionacelerometro/data/AccDataParser.java:64-69 | with a non-empty separator, parsing a line is parsing its raw fields |
| AccDataParser.ParseFieldsFirstThree | src/ec/espol/visualizacionacelerometro/data/AccDataParser.java:67-69 | only the first three fields decide the result |
| AccDataParser.ParseFieldsExtended | src/ec/espol/visualizacionacelerometro/data/AccDataParser.java:67-69 | fields after the third are never read |
| AccDataParser.ParseJoined | src/ec/espol/visualizacionacelerometro/data/AccDataParser.java:61-84 | a line built by joining fields that do not contain the separator's first character parses exactly as those fields |
| AccDataParser.ParseJoinedAppend | src/ec/espol/visualizacionacelerometro/data/AccDataParser.java:64-69 | a joined line followed by a separator and any text parses as its fields followed by that text's fields |
| AccDataParser.FieldNumeral | src/ec/espol/visualizacionacelerometro/data/AccDataParser.java:67-69 | a field of digits reads as the number it denotes |
| AccDataParser.ParseDigitFields | src/ec/espol/visualizacionacelerometro/data/AccDataParser.java:61-84 | three or more digit fields joined by a separator that does not start with a digit parse to the calibrated first three |
| AccDataParser.ParseFormatLine | src/ec/espol/visualizacionacelerometro/data/AccDataParser.java:61-84 | round trip: codes written in decimal and joined by such a separator parse to the calibrated first three codes |
| AccDataParser.ExtraFieldsIgnored | src/ec/espol/visualizacionacelerometro/data/AccDataParser.java:64-69 | appending a separator and anything at all to a three-field line leaves the result unchanged |
| AccDataParser.WhitespaceIgnored | src/ec/espol/visualizacionacelerometro/data/AccDataParser.java:67-69 | whitespace padded around each of the three fields does not change the result, whenever the separator's first character is in no field and in no padding |
| AccDataParser.ForeignSeparatorFails | src/ec/espol/visualizacionacelerometro/data/AccDataParser.java:64-69 | a line that does not contain the separator is one field and gives `null` |
| AccDataParser.ParseMidScale | src/ec/espol/visualizacionacelerometro/data/AccDataParser.java:71-73 | the line 512, 512, 512 parses to 17/11 g on every axis, not 0 g |
| AccDataParser.ParseFullScale | src/ec/espol/visualizacionacelerometro/data/AccDataParser.java:71-73 | the line 1024, 1024, 1024 parses to 67/11 g on every axis, not 3 g |
| AccDataParser.ParseTwoFieldsFails | src/ec/espol/visualizacionacelerometro/data/AccDataParser.java:67-81 | a two-field line gives `null` (the missing field's index error is caught) |
| AccDataParser.ParseNonNumericFails | src/ec/espol/visualizacionacelerometro/data/AccDataParser.java:67-81 | a line whose first field cannot begin a number gives `null` |
| AccDataParser.SeparatorChangeNotRetroactive | src/ec/espol/visualizacionacelerometro/data/AccDataParser.java:48-50 | after the separator is set to a comma, a tab-separated line gives `null` |
| EMAFilter.New | src/ec/espol/visualizacionacelerometro/data/EMAFilter.java:29-32 | a new filter has the given alpha, unchecked, and has seen no sample |
| EMAFilter.Filter | src/ec/espol/visualizacionacelerometro/data/EMAFilter.java:35-47 | the first sample comes back unchanged; a later one is blended with the previous output by alpha; the output becomes the previous value; with alpha in [0, 1] the output lies between the sample and the previous output |
| EMAFilter.SetAlpha | src/ec/espol/visualizacionacelerometro/data/EMAFilter.java:49-51 | only the coefficient changes |
| EMAFilter.SetAlphaThenFilter | src/ec/espol/visualizacionacelerometro/data/EMAFilter.java:49-55 | `getAlpha` reports the new alpha, which acts from the next sample on |
| EMAFilter.FilterAll | src/ec/espol/visualizacionacelerometro/data/EMAFilter.java:35-47 | one output per sample; alpha is unchanged; after a sample the filter is primed and holds the last output |
| EMAFilter.ColdStart | src/ec/espol/visualizacionacelerometro/data/EMAFilter.java:37-41 | the first sample a new filter sees comes back exactly |
| EMAFilter.NeverFirstAgain | src/ec/espol/visualizacionacelerometro/data/EMAFilter.java:37-41 | once a sample has been seen the filter is never "first" again |
| EMAFilter.FilterAllPrefix | src/ec/espol/visualizacionacelerometro/data/EMAFilter.java:35-47 | an output depends only on the samples up to its own |
| EMAFilter.LastOutputBounded | src/ec/espol/visualizacionacelerometro/data/EMAFilter.java:43 | with alpha in [0, 1], the latest output of a new filter lies between the smallest and the largest sample |
| EMAFilter.NoOvershoot | src/ec/espol/visualizacionacelerometro/data/EMAFilter.java:43 | with alpha in [0, 1], every output lies between the smallest and the largest sample seen so far |
| EMAFilter.AlphaOneIsIdentity | src/ec/espol/visualizacionacelerometro/data/EMAFilter.java:43 | alpha 1 passes every sample through unchanged |
| EMAFilter.AlphaZeroHoldsFirst | src/ec/espol/visualizacionacelerometro/data/EMAFilter.java:37-44 | alpha 0 holds a new filter at its first sample for ever |
| EMAFilter.WeightedSumSnoc | src/ec/espol/visualizacionacelerometro/data/EMAFilter.java:20 | the weighted sum of the samples obeys the recurrence S(t) = alpha·Y(t) + (1 − alpha)·S(t − 1) |
| EMAFilter.FilterAllIsWeightedSum | src/ec/espol/visualizacionacelerometro/data/EMAFilter.java:20 | the filter computes the exponential moving average it is named after: the last of n outputs is (1 − alpha)^(n−1) times the first sample plus alpha·(1 − alpha)^(n−1−j) times each later sample j |
| SerialDataCollection.New | src/ec/espol/visualizacionacelerometro/data/SerialDataCollection.java:49-54 | a new source is disconnected and has a 1024-byte buffer |
| SerialDataCollection.IsConnected | src/ec/espol/visualizacionacelerometro/data/SerialDataCollection.java:107-110 | reports the connected flag |
| SerialDataCollection.GetComLinks | src/ec/espol/visualizacionacelerometro/data/SerialDataCollection.java:58-68 | only enumerated port names are listed, in order; the list is empty exactly when no serial port is enumerated |
| SerialDataCollection.GetComLinksAppend | src/ec/espol/visualizacionacelerometro/data/SerialDataCollection.java:58-68 | the listing is taken in enumeration order: listing two enumerations back to back concatenates their listings |
| SerialDataCollection.SerialPortListed | src/ec/espol/visualizacionacelerometro/data/SerialDataCollection.java:61-66 | every enumerated serial port is listed |
| SerialDataCollection.SerialConnect | src/ec/espol/visualizacionacelerometro/data/SerialDataCollection.java:117-146 | only a serial port that opens connects the source; an owned or non-serial port throws nothing; every other outcome throws |
| SerialDataCollection.Connect | src/ec/espol/visualizacionacelerometro/data/SerialDataCollection.java:71-91 | a connected source reports OK and changes nothing; otherwise BUSY exactly for a port in use, IO_ERROR exactly for an I/O failure, ERROR exactly for a missing port or any other exception, OK otherwise; connected exactly when the port opened |
| SerialDataCollection.ConnectMeetsContract | src/ec/espol/visualizacionacelerometro/data/DataCollectionInterface.java:39-44 | a failed connect leaves the connected state alone, and a connected source stays connected and reports OK |
| SerialDataCollection.OkWithoutConnection | src/ec/espol/visualizacionacelerometro/data/SerialDataCollection.java:120-144 | an owned or non-serial port reports OK and leaves the source disconnected |
| SerialDataCollection.ConnectedIgnoresPort | src/ec/espol/visualizacionacelerometro/data/SerialDataCollection.java:72-75 | a connected source ignores the named port and how opening it would end |
| SerialDataCollection.Disconnect | src/ec/espol/visualizacionacelerometro/data/SerialDataCollection.java:95-105 | a disconnected source is unchanged; a connected one disconnects unless closing the stream fails, which is caught and leaves it connected |
| SerialDataCollection.DisconnectMeetsContract | src/ec/espol/visualizacionacelerometro/data/DataCollectionInterface.java:46-49 | `disconnect` never connects a source |
| SerialDataCollection.DisconnectIdempotent | src/ec/espol/visualizacionacelerometro/data/SerialDataCollection.java:97-101 | after a clean disconnect, disconnecting again changes nothing |
| SerialDataCollection.ConnectDisconnectRoundTrip | src/ec/espol/visualizacionacelerometro/data/SerialDataCollection.java:95-105 | connecting to a port that opens and then disconnecting cleanly restores the source |
| SerialDataCollection.LineEnd | src/ec/espol/visualizacionacelerometro/data/SerialDataCollection.java:159-165 | the line stops at the first newline, read error or end of input, and every read before it is a non-newline byte |
| SerialDataCollection.SerialEvent | src/ec/espol/visualizacionacelerometro/data/SerialDataCollection.java:153-174 | the byte loop delivers exactly the line the reference definition gives, or fails on a read error, or overflows the buffer |
| SerialDataCollection.FramedLineDelivered | src/ec/espol/visualizacionacelerometro/data/SerialDataCollection.java:159-168 | round trip: a newline-terminated line that fits the buffer is delivered exactly and what follows stays unread |
| SerialDataCollection.UnterminatedDelivered | src/ec/espol/visualizacionacelerometro/data/SerialDataCollection.java:159-168 | bytes that end without a newline are still delivered whole, even when there are none |
| SerialDataCollection.EventShape | src/ec/espol/visualizacionacelerometro/data/SerialDataCollection.java:158-165 | a delivered line holds no newline and fits the buffer; every event leaves a suffix of the input unread, strictly shorter unless the input was empty |
| SerialDataCollection.OverflowExactly | src/ec/espol/visualizacionacelerometro/data/SerialDataCollection.java:158-165 | the buffer overflows exactly when the first 1025 reads are all non-newline bytes |
| SerialDataCollection.DrainFramedLines | src/ec/espol/visualizacionacelerometro/data/SerialDataCollection.java:153-174 | round trip: handling events until the input is used up yields exactly the lines that were framed |
| VisualizacionFrame.Init | src/ec/espol/visualizacionacelerometro/GUI/VisualizacionFrame.java:82-86 | the window starts with a tab-separated parser and three unprimed filters at alpha 0.5; the slider at 50, the text "0.5" and the indicator off are set at lines 315, 328 and 277 of the same file |
| VisualizacionFrame.TextReadsBackAsSlider | src/ec/espol/visualizacionacelerometro/GUI/VisualizacionFrame.java:479-483 | text written by the slider handler reads back as the slider's alpha |
| VisualizacionFrame.Clamp | src/ec/espol/visualizacionacelerometro/GUI/VisualizacionFrame.java:499 | `setValue` keeps a value in 0..100 and clamps one outside it to the nearer end |
| VisualizacionFrame.ReceiveNewData | src/ec/espol/visualizacionacelerometro/GUI/VisualizacionFrame.java:206-219 | a line that parses feeds each axis to its own filter, draws the three outputs and shows ON; a line that does not parse only shows the error icon |
| VisualizacionFrame.AlphaSliderStateChanged | src/ec/espol/visualizacionacelerometro/GUI/VisualizacionFrame.java:477-484 | all three filters take the slider's position in hundredths, the text shows it, and nothing else changes |
| VisualizacionFrame.AcceptAlpha | src/ec/espol/visualizacionacelerometro/GUI/VisualizacionFrame.java:494-497 | a typed number becomes all three filters' alpha unchecked, and only the alpha changes in each filter |
| VisualizacionFrame.TypedPosition | src/ec/espol/visualizacionacelerometro/GUI/VisualizacionFrame.java:498-499 | the slider position asked for by an alpha in [0, 1] is its hundredths rounded down; an alpha at or above 1 asks for 100 and one at or below 0 asks for 0 |
| VisualizacionFrame.RejectAlpha | src/ec/espol/visualizacionacelerometro/GUI/VisualizacionFrame.java:500-503 | text that is not a number is replaced by the slider's value and nothing else changes |
| VisualizacionFrame.AlphaTextActionPerformed | src/ec/espol/visualizacionacelerometro/GUI/VisualizacionFrame.java:490-504 | a number is kept if the slider stays put, and otherwise is overridden by the slider handler at the new position; anything else is rejected |
| VisualizacionFrame.ConnectIndicator | src/ec/espol/visualizacionacelerometro/GUI/VisualizacionFrame.java:439-451 | ON exactly for OK, the error icon exactly for ERROR, OFF exactly for BUSY and IO_ERROR |
| VisualizacionFrame.NewSession | src/ec/espol/visualizacionacelerometro/GUI/VisualizacionFrame.java:63-87 | the window starts as built, with its data source disconnected |
| VisualizacionFrame.StartPressed | src/ec/espol/visualizacionacelerometro/GUI/VisualizacionFrame.java:434-452 | the start button connects the source and shows the icon for the result |
| VisualizacionFrame.StopPressed | src/ec/espol/visualizacionacelerometro/GUI/VisualizacionFrame.java:458-462 | the stop button disconnects and shows OFF whether or not the disconnection succeeded |
| VisualizacionFrame.WindowClosing | src/ec/espol/visualizacionacelerometro/GUI/VisualizacionFrame.java:468-471 | closing the window disconnects and changes nothing else |
| VisualizacionFrame.Decode | src/ec/espol/visualizacionacelerometro/data/SerialDataCollection.java:168 | the text of a buffer has one character per byte, with the byte's code |
| VisualizacionFrame.DecodeEncode | src/ec/espol/visualizacionacelerometro/data/SerialDataCollection.java:168 | text whose characters fit a byte survives sending as bytes and decoding |
| VisualizacionFrame.DataAvailable | src/ec/espol/visualizacionacelerometro/data/SerialDataCollection.java:153-174 | a delivered line reaches `receiveNewData`; a read error or an overflow changes nothing and draws nothing; the source is untouched |
| VisualizacionFrame.ReceiveKeepsSameAlpha | src/ec/espol/visualizacionacelerometro/GUI/VisualizacionFrame.java:206-219 | new data keeps the three filters on one alpha |
| VisualizacionFrame.ControlsSetSameAlpha | src/ec/espol/visualizacionacelerometro/GUI/VisualizacionFrame.java:477-504 | both alpha controls leave the three filters on one alpha |
| VisualizacionFrame.AxesIndependent | src/ec/espol/visualizacionacelerometro/GUI/VisualizacionFrame.java:210-213 | each filter's new state depends only on its own axis and its own previous state |
| VisualizacionFrame.FirstLineDrawnExactly | src/ec/espol/visualizacionacelerometro/GUI/VisualizacionFrame.java:206-215 | a fresh window draws the first well-formed line exactly as calibrated and shows ON |
| VisualizacionFrame.BadLineKeepsFilters | src/ec/espol/visualizacionacelerometro/GUI/VisualizacionFrame.java:216-218 | a line that does not parse shows the error icon and keeps all three filters |
| VisualizacionFrame.SliderTracksTypedAlpha | src/ec/espol/visualizacionacelerometro/GUI/VisualizacionFrame.java:494-499 | for an alpha in [0, 1] the slider lands on its truncated hundredths and the filters end within one hundredth above that position |
| VisualizacionFrame.TypedAlphaKept | src/ec/espol/visualizacionacelerometro/GUI/VisualizacionFrame.java:494-499 | if the slider stays put, the filters keep the typed alpha and the text keeps what was typed |
| VisualizacionFrame.TypedAlphaOverridden | src/ec/espol/visualizacionacelerometro/GUI/VisualizacionFrame.java:494-499 | if the slider moves, the filters and the text end at the slider's new hundredths |
| VisualizacionFrame.OutOfRangeAlphaReachable | src/ec/espol/visualizacionacelerometro/GUI/VisualizacionFrame.java:494-499 | typing 2 into a fresh window gives alpha 1; typing 2 again gives alpha 2 |
| VisualizacionFrame.TextOutOfRangeDesync | src/ec/espol/visualizacionacelerometro/GUI/VisualizacionFrame.java:494-503 | with the slider at 100, an alpha at or above 1 is kept, and a later bad entry shows "1.0" while the filters keep the typed alpha |
| VisualizacionFrame.NegativeAlphaSliderAtZero | src/ec/espol/visualizacionacelerometro/GUI/VisualizacionFrame.java:494-499 | an alpha at or below 0 sends the slider to 0; the filters keep it only if the slider was already at 0 |
| VisualizacionFrame.StartIndicatorHonest | src/ec/espol/visualizacionacelerometro/GUI/VisualizacionFrame.java:436-451 | the start button shows ON exactly when connect did not fail, and always for a source already connected |
| VisualizacionFrame.StopAfterFailedClose | src/ec/espol/visualizacionacelerometro/GUI/VisualizacionFrame.java:458-471 | after a failed stream close the stop button shows OFF while the port stays connected, the next start shows ON, and closing the window leaves the port connected; a clean close disconnects |
| VisualizacionFrame.SentLineReceived | src/ec/espol/visualizacionacelerometro/data/SerialDataCollection.java:159-168 | a newline-terminated line within the buffer reaches the window exactly as sent, and what follows stays unread |

## Left out

- Drawing: the 3D plot, `drawXYZData`, the icons and the window layout are left out. The drawn triple is returned instead, and the indicator is a three-valued field.
- RXTX is replaced by parameters:
  - Port enumeration is the enumerated sequence.
  - How opening a port ends is the `tryOpen` function.
  - How closing the stream ends is a `CloseOutcome`.
  - Each event's reads are an input sequence.
  - The serial parameters (9600 8N1), the 2-second open timeout and listener registration are not modelled beyond their outcome.
- SerialDataCollection.SerialConnect: a port that opens but is not serial is never closed. Neither is a port whose set-up fails after opening. The model tracks only the source's connected flag, not the library's port ownership.
- Concurrency: serial events arrive on the library's thread, but the model runs every handler to completion, one at a time.
- Console messages (`System.out.println`) are left out. So are the application's singletons that connect the source to the window (`getGUIFrame`, `getDataSource`).
- JavaText.ParseDouble: accepts only an optional sign, digits and one optional point, with at least one digit. Java also accepts exponents, `d`/`f` suffixes, `NaN`, `Infinity` and hexadecimal numerals, which the model rejects.
- Doubles are modelled as exact `real`s, with no rounding. For example, Java computes `(int)(0.29 * 100)` as 28, where the model gives 29.
- JavaText.Split: the separator is taken literally. Java reads it as a regular expression. The two agree on the default tab and on any separator without regular-expression metacharacters.
- VisualizacionFrame.Decode: bytes are decoded one character per byte (ISO-8859-1). Java's `new String(buffer, 0, len)` uses the platform's default charset.
- JavaText.FormatHundredths: `Double.toString` is modelled only for the slider's values k/100 with k in 0..100.
- VisualizacionFrame.AlphaSliderStateChanged: only the final slider value is modelled. The intermediate change events fired while the slider is dragged are not.

=== FILE: acc_data_parser.dfy ===
/** The sample parser: splits a line on the separator, reads the first three
    fields as raw ADC codes and converts each to acceleration in g. */
module AccDataParser {
  import opened JavaText

  /** Full-scale reading of the accelerometer, in g. */
  const MaxG: real := 3.0
  /** Reference voltage of the Arduino ADC, in volts. */
  const VArduinoRef: real := 5.0
  /** Supply/reference voltage of the accelerometer, in volts. */
  const VAccRef: real := 3.3
  /** Codes of the 10-bit ADC. */
  const AdcBits: int := 1024

  /** The parser's only state is its field separator. */
  datatype Parser = Parser(separator: string)

  /** A new parser splits on a tab. */
  function New(): (p: Parser)
    ensures p.separator == "\t"
  {
    Parser("\t")
  }

  /** `setSaparator` (sic): replaces the separator for later calls. */
  function SetSaparator(p: Parser, separator: string): (r: Parser)
    ensures GetSeparator(r) == separator
  {
    Parser(separator)
  }

  function GetSeparator(p: Parser): string {
    p.separator
  }

  /** Raw ADC code to g: the reading as a fraction of full scale, scaled to
      volts, then to g over the sensor's 0..3.3 V span, shifted by -3 g. */
  function ToG(raw: real): real {
    VArduinoRef * (raw / AdcBits as real) * (2.0 * MaxG / VAccRef) - MaxG
  }

  /** The calibration worked out: g = 25 r / 2816 - 3. */
  lemma ToGClosedForm(raw: real)
    ensures ToG(raw) == 25.0 * raw / 2816.0 - 3.0
  {
  }

  /** The inverse calibration: the raw code that reads as `g`. */
  function FromG(g: real): real {
    (g + 3.0) * 2816.0 / 25.0
  }

  /** Calibration and its inverse undo each other. */
  lemma CalibrationRoundTrip(raw: real, g: real)
    ensures FromG(ToG(raw)) == raw
    ensures ToG(FromG(g)) == g
  {
  }

  /** A larger raw code always reads as a larger acceleration. */
  lemma ToGStrictlyIncreasing(a: real, b: real)
    requires a < b
    ensures ToG(a) < ToG(b)
  {
  }

  /** Landmarks of the calibration: code 0 reads -3 g, code 337.92 reads
      0 g, code 675.84 reads +3 g, while the mid-scale code 512 reads
      17/11 g and the full-scale code 1024 reads 67/11 g. */
  lemma ToGLandmarks()
    ensures ToG(0.0) == -3.0
    ensures ToG(337.92) == 0.0
    ensures ToG(675.84) == 3.0
    ensures ToG(512.0) == 17.0 / 11.0
    ensures ToG(1024.0) == 67.0 / 11.0
  {
  }

  /** One field: trimmed, then read with `Double.parseDouble`. */
  function ParseField(field: string): Option<real> {
    ParseDouble(Trim(field))
  }

  /** The all-or-nothing core of `parse`: fewer than three fields, or a
      first, second or third field that is not a number, gives `None`;
      otherwise the three calibrated values in x, y, z order. Fields after
      the third are never looked at. */
  function ParseFields(fields: seq<string>): (r: Option<seq<real>>)
    ensures r.Some? <==>
      |fields| >= 3 && ParseField(fields[0]).Some? && ParseField(fields[1]).Some? && ParseField(fields[2]).Some?
    ensures r.Some? ==> r.value == [ToG(ParseField(fields[0]).value),
                                    ToG(ParseField(fields[1]).value),
                                    ToG(ParseField(fields[2]).value)]
  {
    if |fields| < 3 then None
    else
      var x := ParseField(fields[0]);
      var y := ParseField(fields[1]);
      var z := ParseField(fields[2]);
      if x.Some? && y.Some? && z.Some? then Some([ToG(x.value), ToG(y.value), ToG(z.value)]) else None
  }

  /** `parse(data)`: `None` stands for the `null` the source returns. */
  function Parse(p: Parser, data: string): (r: Option<seq<real>>)
    ensures |Split(data, p.separator)| < 3 ==> r.None?
    ensures r.Some? ==> |r.value| == 3
  {
    ParseFields(Split(data, p.separator))
  }

  /** An empty field is never a number. */
  lemma EmptyFieldFails()
    ensures ParseField("") == None
  {
  }

  /** Dropping empty trailing fields cannot change the outcome: if that
      removes one of the first three fields, that field was empty and the
      line failed anyway. */
  lemma ParseFieldsDropTrailing(fields: seq<string>)
    ensures ParseFields(DropTrailingEmpty(fields)) == ParseFields(fields)
  {
    var r := DropTrailingEmpty(fields);
    if |r| >= 3 {
      assert r[..3] == fields[..3];
      assert r[0] == fields[0] && r[1] == fields[1] && r[2] == fields[2];
    } else if |fields| >= 3 {
      assert fields[|r|] == [];
      EmptyFieldFails();
    }
  }

  /** With a non-empty separator, parsing reads the raw fields (Java's
      removal of empty trailing fields makes no difference). */
  lemma ParseViaRawSplit(p: Parser, data: string)
    requires |p.separator| > 0
    ensures Parse(p, data) == ParseFields(RawSplit(data, p.separator))
  {
    if IndexOf(data, p.separator).Some? {
      ParseFieldsDropTrailing(RawSplit(data, p.separator));
    }
  }

  /** Only the first three fields decide the outcome. */
  lemma ParseFieldsFirstThree(a: seq<string>, b: seq<string>)
    requires |a| >= 3 && |b| >= 3 && a[..3] == b[..3]
    ensures ParseFields(a) == ParseFields(b)
  {
    assert a[0] == a[..3][0] && a[1] == a[..3][1] && a[2] == a[..3][2];
    assert b[0] == b[..3][0] && b[1] == b[..3][1] && b[2] == b[..3][2];
  }

  /** A line made by joining fields that do not contain the separator's
      first character parses exactly as those fields. */
  lemma ParseJoined(sep: string, fields: seq<string>)
    requires |sep| > 0 && |fields| >= 1
    requires forall k :: 0 <= k < |fields| ==> sep[0] !in fields[k]
    ensures Parse(Parser(sep), Join(fields, sep)) == ParseFields(fields)
  {
    RawSplitJoin(fields, sep);
    ParseViaRawSplit(Parser(sep), Join(fields, sep));
  }

  lemma ParseJoinedAppend(sep: string, fields: seq<string>, extra: string)
    requires |sep| > 0 && |fields| >= 1
    requires forall k :: 0 <= k < |fields| ==> sep[0] !in fields[k]
    ensures Parse(Parser(sep), Join(fields, sep) + sep + extra) == ParseFields(fields + RawSplit(extra, sep))
  {
    RawSplitAppend(fields, sep, extra);
    ParseViaRawSplit(Parser(sep), Join(fields, sep) + sep + extra);
  }

  /** A line of three or more decimal numerals, joined by a separator that
      does not start with a digit, parses to the calibrated first three. */
  lemma ParseDigitFields(fields: seq<string>, sep: string)
    requires |fields| >= 3 && |sep| > 0 && !IsDigit(sep[0])
    requires forall k :: 0 <= k < |fields| ==> |fields[k]| > 0 && AllDigits(fields[k])
    ensures Parse(Parser(sep), Join(fields, sep))
      == Some([ToG(DigitsValue(fields[0]) as real), ToG(DigitsValue(fields[1]) as real),
               ToG(DigitsValue(fields[2]) as real)])
  {
    forall k | 0 <= k < |fields|
      ensures sep[0] !in fields[k]
    {
    }
    ParseJoined(sep, fields);
    FieldNumeral(fields[0]);
    FieldNumeral(fields[1]);
    FieldNumeral(fields[2]);
  }

  /** A field of digits reads as the number it denotes. */
  lemma FieldNumeral(field: string)
    requires |field| > 0 && AllDigits(field)
    ensures ParseField(field) == Some(DigitsValue(field) as real)
  {
    calc {
      ParseField(field);
    ==
      ParseDouble(Trim(field));
    == { TrimDigits(field); }
      ParseDouble(field);
    == { ParseNumeral(field); }
      Some(DigitsValue(field) as real);
    }
  }

  /** The wire format: each code written in decimal, separated by `sep`. */
  function FormatLine(codes: seq<nat>, sep: string): string {
    Join(seq(|codes|, i requires 0 <= i < |codes| => FormatNat(codes[i])), sep)
  }

  /** Round trip: a line written in the wire format with any separator that
      does not start with a digit parses back to the calibrated first three
      codes. */
  lemma ParseFormatLine(codes: seq<nat>, sep: string)
    requires |codes| >= 3 && |sep| > 0 && !IsDigit(sep[0])
    ensures Parse(Parser(sep), FormatLine(codes, sep))
      == Some([ToG(codes[0] as real), ToG(codes[1] as real), ToG(codes[2] as real)])
  {
    var fields := seq(|codes|, i requires 0 <= i < |codes| => FormatNat(codes[i]));
    ParseDigitFields(fields, sep);
  }

  /** Fields after the third are ignored: appending a separator and
      anything at all to a three-field line leaves the result unchanged. */
  lemma ExtraFieldsIgnored(sep: string, fields: seq<string>, extra: string)
    requires |sep| > 0 && |fields| == 3
    requires forall k :: 0 <= k < 3 ==> sep[0] !in fields[k]
    ensures Parse(Parser(sep), Join(fields, sep) + sep + extra) == Parse(Parser(sep), Join(fields, sep))
  {
    ParseJoinedAppend(sep, fields, extra);
    ParseFieldsExtended(fields, RawSplit(extra, sep));
    ParseJoined(sep, fields);
  }

  lemma ParseFieldsExtended(fields: seq<string>, more: seq<string>)
    requires |fields| == 3
    ensures ParseFields(fields + more) == ParseFields(fields)
  {
    var longer := fields + more;
    assert longer[..3] == fields[..3];
    ParseFieldsFirstThree(longer, fields);
  }

  /** Whitespace around each field does not change the result, as long as
      the separator's first character occurs neither in a field nor in its
      padding (so a tab-separated line may still pad with spaces). */
  lemma WhitespaceIgnored(sep: string, fields: seq<string>, before: seq<string>, after: seq<string>)
    requires |sep| > 0
    requires |fields| == 3 && |before| == 3 && |after| == 3
    requires forall k :: 0 <= k < 3 ==> sep[0] !in fields[k]
    requires forall k :: 0 <= k < 3 ==> sep[0] !in before[k] && sep[0] !in after[k]
    requires forall k :: 0 <= k < 3 ==> AllTrimmable(before[k]) && AllTrimmable(after[k])
    ensures Parse(Parser(sep), Join(Padded(before, fields, after), sep)) == Parse(Parser(sep), Join(fields, sep))
  {
    var padded := Padded(before, fields, after);
    forall k | 0 <= k < 3
      ensures sep[0] !in padded[k]
      ensures ParseField(padded[k]) == ParseField(fields[k])
    {
      TrimPadded(before[k], fields[k], after[k]);
    }
    ParseJoined(sep, padded);
    ParseJoined(sep, fields);
  }

  /** Each field wrapped in the matching leading and trailing padding. */
  function Padded(before: seq<string>, fields: seq<string>, after: seq<string>): (r: seq<string>)
    requires |before| == |fields| == |after|
    ensures |r| == |fields|
    ensures forall k :: 0 <= k < |r| ==> r[k] == before[k] + fields[k] + after[k]
  {
    seq(|fields|, k requires 0 <= k < |fields| => before[k] + fields[k] + after[k])
  }

  /** Parsing with a separator the line does not contain sees a single
      field and fails: changing the separator is not retroactive. */
  lemma ForeignSeparatorFails(p: Parser, data: string)
    requires |p.separator| > 0 && forall j :: !OccursAt(data, p.separator, j)
    ensures Parse(p, data) == None
  {
    IndexOfFirst(data, p.separator);
  }

  /** The mid-scale code 512 does not read 0 g but 17/11 g. */
  lemma ParseMidScale(sep: string)
    requires |sep| > 0 && !IsDigit(sep[0])
    ensures Parse(Parser(sep), FormatLine([512, 512, 512], sep)) == Some([17.0 / 11.0, 17.0 / 11.0, 17.0 / 11.0])
  {
    ParseFormatLine([512, 512, 512], sep);
    ToGLandmarks();
  }

  /** The full-scale code 1024 reads 67/11 g, about 6.09 g, not 3 g. */
  lemma ParseFullScale(sep: string)
    requires |sep| > 0 && !IsDigit(sep[0])
    ensures Parse(Parser(sep), FormatLine([1024, 1024, 1024], sep)) == Some([67.0 / 11.0, 67.0 / 11.0, 67.0 / 11.0])
  {
    ParseFormatLine([1024, 1024, 1024], sep);
    ToGLandmarks();
  }

  /** Two fields are not enough. */
  lemma ParseTwoFieldsFails()
    ensures Parse(New(), "1\t2") == None
  {
    assert "1\t2" == Join(["1", "2"], "\t");
    RawSplitJoin(["1", "2"], "\t");
    ParseViaRawSplit(New(), "1\t2");
  }

  /** A line whose first field starts with a character that cannot begin a
      number (not blank, not a digit, not a sign, not a point) fails. */
  lemma ParseNonNumericFails(sep: string, fields: seq<string>)
    requires |sep| > 0 && |fields| >= 1
    requires forall k :: 0 <= k < |fields| ==> sep[0] !in fields[k]
    requires fields[0] != [] && !IsTrimmable(fields[0][0]) && !IsDigit(fields[0][0])
    requires fields[0][0] !in "+-."
    ensures Parse(Parser(sep), Join(fields, sep)) == None
  {
    ParseJoined(sep, fields);
    TrimKeepsFirst(fields[0]);
    TrimKeepsFirst(Trim(fields[0]));
    ParseNonNumeric(Trim(Trim(fields[0])));
  }

  /** After switching to a comma, a tab-separated line no longer parses. */
  lemma SeparatorChangeNotRetroactive()
    ensures Parse(SetSaparator(New(), ","), "1\t2\t3") == None
  {
    NoOccurrence("1\t2\t3", ",");
    IndexOfFirst("1\t2\t3", ",");
    ForeignSeparatorFails(SetSaparator(New(), ","), "1\t2\t3");
  }
}

=== FILE: data_collection_interface.dfy ===
/** The contract every data source offers the viewer: it lists the
    communication ports it can reach, connects to one by name, disconnects,
    and reports whether it is connected. The contract is stated over a
    source's connected flag before and after each operation, so that any
    implementation can be checked against it. */
module DataCollectionInterface {

  /** The four outcomes of a connection attempt. */
  datatype ConnectionResult =
    | ConnectionOk
    | ConnectionError
    | ConnectionBusy
    | ConnectionIoError

  /** Every failed attempt is reported as one of the three failure outcomes. */
  predicate IsFailure(r: ConnectionResult) {
    !r.ConnectionOk?
  }

  /** What `connect` promises: a failure never changes the connected state,
      and a connected source stays connected (it does not connect twice). */
  predicate ConnectContract(before: bool, after: bool, result: ConnectionResult) {
    (IsFailure(result) ==> after == before) && (before ==> after && result == ConnectionOk)
  }

  /** What `disconnect` promises: it never connects a source. */
  predicate DisconnectContract(before: bool, after: bool) {
    after ==> before
  }

  /** The port names of a listing, in the order the ports were enumerated;
      a listing that finds no port is the empty list, not a failure. */
  predicate ListingContract(links: seq<string>, names: seq<string>) {
    IsSubsequence(links, names)
  }

  /** `a` is `b` with some elements left out, the rest in their order. */
  predicate IsSubsequence<T(==)>(a: seq<T>, b: seq<T>)
    decreases |b|
  {
    if a == [] then true
    else if b == [] then false
    else (a[0] == b[0] && IsSubsequence(a[1..], b[1..])) || IsSubsequence(a, b[1..])
  }

  /** A subsequence is no longer than the whole and takes only its
      elements. */
  lemma {:induction false} SubsequenceElements<T>(a: seq<T>, b: seq<T>)
    requires IsSubsequence(a, b)
    ensures |a| <= |b|
    ensures forall i :: 0 <= i < |a| ==> a[i] in b
    decreases |b|
  {
    if a != [] {
      if a[0] == b[0] && IsSubsequence(a[1..], b[1..]) {
        SubsequenceElements(a[1..], b[1..]);
        forall i | 0 <= i < |a|
          ensures a[i] in b
        {
          if i > 0 {
            assert a[i] == a[1..][i - 1];
            assert a[i] in b[1..];
          }
        }
      } else {
        SubsequenceElements(a, b[1..]);
      }
    }
  }
}

=== FILE: ema_filter.dfy ===
/** The single-channel exponential moving average
    S(t) = alpha * Y(t) + (1 - alpha) * S(t - 1), seeded with the first sample. */
module EMAFilter {

  /** One channel's state: the smoothing coefficient, whether no sample has
      been seen yet, and the last output. */
  datatype EMA = EMA(alpha: real, isFirst: bool, previousDatum: real)

  /** The filter after one sample, and the smoothed value it returned. */
  datatype Step = Step(filter: EMA, output: real)

  /** A run over several samples: the final filter and every output. */
  datatype Run = Run(filter: EMA, outputs: seq<real>)

  predicate Between(v: real, a: real, b: real) {
    (a <= v <= b) || (b <= v <= a)
  }

  lemma MulNonneg(a: real, b: real)
    requires a >= 0.0 && b >= 0.0
    ensures a * b >= 0.0
  {
  }

  /** A convex combination of two values lies between them. */
  lemma ConvexBetween(a: real, x: real, y: real)
    ensures 0.0 <= a <= 1.0 ==> Between(a * x + (1.0 - a) * y, x, y)
  {
    if 0.0 <= a <= 1.0 {
      var v := a * x + (1.0 - a) * y;
      assert v - y == a * (x - y);
      assert x - v == (1.0 - a) * (x - y);
      if x >= y {
        MulNonneg(a, x - y);
        MulNonneg(1.0 - a, x - y);
      } else {
        MulNonneg(a, y - x);
        MulNonneg(1.0 - a, y - x);
        assert a * (y - x) == -(a * (x - y));
        assert (1.0 - a) * (y - x) == -((1.0 - a) * (x - y));
      }
    }
  }

  /** The smoothing step: the sample weighs alpha, the previous output 1 - alpha. */
  function Blend(alpha: real, datum: real, prev: real): real {
    alpha * datum + (1.0 - alpha) * prev
  }

  /** A new filter: no sample seen, alpha taken as given without a range
      check; `previousDatum` holds Java's field default until the first
      sample overwrites it. */
  function New(alpha: real): (f: EMA)
    ensures f.isFirst && f.alpha == alpha
  {
    EMA(alpha, true, 0.0)
  }

  /** `filter(datum)`: the first sample seeds the previous value, so it comes
      back unchanged; every later output blends the sample with the previous
      output; the output becomes the new previous value. */
  function Filter(f: EMA, datum: real): (r: Step)
    ensures f.isFirst ==> r.output == datum
    ensures !f.isFirst ==> r.output == Blend(f.alpha, datum, f.previousDatum)
    ensures r.filter == EMA(f.alpha, false, r.output)
    ensures 0.0 <= f.alpha <= 1.0 && !f.isFirst ==> Between(r.output, datum, f.previousDatum)
  {
    var prev := if f.isFirst then datum else f.previousDatum;
    var s := Blend(f.alpha, datum, prev);
    ConvexBetween(f.alpha, datum, prev);
    Step(EMA(f.alpha, false, s), s)
  }

  /** `setAlpha`: replaces the coefficient and nothing else. */
  function SetAlpha(f: EMA, alpha: real): (r: EMA)
    ensures r.alpha == alpha
    ensures r.isFirst == f.isFirst && r.previousDatum == f.previousDatum
  {
    f.(alpha := alpha)
  }

  function GetAlpha(f: EMA): real {
    f.alpha
  }

  /** A new alpha acts from the next sample on, and `getAlpha` reports it. */
  lemma SetAlphaThenFilter(f: EMA, alpha: real, datum: real)
    ensures GetAlpha(SetAlpha(f, alpha)) == alpha
    ensures !f.isFirst ==>
      Filter(SetAlpha(f, alpha), datum).output == alpha * datum + (1.0 - alpha) * f.previousDatum
    ensures f.isFirst ==> Filter(SetAlpha(f, alpha), datum).output == datum
  {
  }

  /** Feeds the samples in order; the outputs are the values `filter`
      returns one by one. */
  function FilterAll(f: EMA, data: seq<real>): (r: Run)
    ensures |r.outputs| == |data|
    ensures r.filter.alpha == f.alpha
    ensures data == [] ==> r.filter == f
    ensures data != [] ==> !r.filter.isFirst && r.filter.previousDatum == r.outputs[|data| - 1]
    decreases |data|
  {
    if data == [] then
      Run(f, [])
    else
      var before := FilterAll(f, data[..|data| - 1]);
      var step := Filter(before.filter, data[|data| - 1]);
      Run(step.filter, before.outputs + [step.output])
  }

  /** The first sample seen by a new filter comes back exactly. */
  lemma ColdStart(alpha: real, datum: real)
    ensures Filter(New(alpha), datum).output == datum
    ensures !Filter(New(alpha), datum).filter.isFirst
  {
  }

  /** Once a sample has been seen the filter never becomes "first" again. */
  lemma {:induction false} NeverFirstAgain(f: EMA, data: seq<real>, k: nat)
    requires 0 < k <= |data|
    ensures !FilterAll(f, data[..k]).filter.isFirst
  {
  }

  function Min(s: seq<real>): (m: real)
    requires |s| > 0
    ensures forall i :: 0 <= i < |s| ==> m <= s[i]
    ensures exists i :: 0 <= i < |s| && m == s[i]
    decreases |s|
  {
    if |s| == 1 then s[0]
    else
      var m := Min(s[..|s| - 1]);
      var last := s[|s| - 1];
      assert forall i :: 0 <= i < |s| - 1 ==> s[..|s| - 1][i] == s[i];
      if last < m then last else m
  }

  function Max(s: seq<real>): (m: real)
    requires |s| > 0
    ensures forall i :: 0 <= i < |s| ==> s[i] <= m
    ensures exists i :: 0 <= i < |s| && m == s[i]
    decreases |s|
  {
    if |s| == 1 then s[0]
    else
      var m := Max(s[..|s| - 1]);
      var last := s[|s| - 1];
      assert forall i :: 0 <= i < |s| - 1 ==> s[..|s| - 1][i] == s[i];
      if last > m then last else m
  }

  /** The first k outputs do not depend on the samples after the k-th. */
  lemma {:induction false} FilterAllPrefix(f: EMA, data: seq<real>, k: nat)
    requires k <= |data|
    ensures FilterAll(f, data).outputs[..k] == FilterAll(f, data[..k]).outputs
    decreases |data|
  {
    if k == |data| {
      assert data[..k] == data;
    } else {
      var n := |data| - 1;
      FilterAllPrefix(f, data[..n], k);
      assert data[..n][..k] == data[..k];
    }
  }

  /** The latest output of a new filter with 0 <= alpha <= 1 lies between the
      smallest and the largest sample. */
  lemma {:induction false} LastOutputBounded(f: EMA, data: seq<real>)
    requires f.isFirst && 0.0 <= f.alpha <= 1.0 && |data| > 0
    ensures Min(data) <= FilterAll(f, data).outputs[|data| - 1] <= Max(data)
    decreases |data|
  {
    var n := |data| - 1;
    if n > 0 {
      var before := data[..n];
      LastOutputBounded(f, before);
      var prev := FilterAll(f, before).filter;
      assert !prev.isFirst;
      assert Between(FilterAll(f, data).outputs[n], data[n], prev.previousDatum);
    }
  }

  /** With 0 <= alpha <= 1 a new filter never overshoots: each output lies
      between the smallest and the largest sample seen so far. */
  lemma NoOvershoot(f: EMA, data: seq<real>)
    requires f.isFirst && 0.0 <= f.alpha <= 1.0
    ensures forall i :: 0 <= i < |data| ==>
      Min(data[..i + 1]) <= FilterAll(f, data).outputs[i] <= Max(data[..i + 1])
  {
    forall i | 0 <= i < |data|
      ensures Min(data[..i + 1]) <= FilterAll(f, data).outputs[i] <= Max(data[..i + 1])
    {
      FilterAllPrefix(f, data, i + 1);
      LastOutputBounded(f, data[..i + 1]);
      assert FilterAll(f, data).outputs[i] == FilterAll(f, data).outputs[..i + 1][i];
    }
  }

  /** alpha = 1 turns the filter into the identity. */
  lemma {:induction false} AlphaOneIsIdentity(f: EMA, data: seq<real>)
    requires f.alpha == 1.0
    ensures FilterAll(f, data).outputs == data
    decreases |data|
  {
    if data != [] {
      AlphaOneIsIdentity(f, data[..|data| - 1]);
      assert data == data[..|data| - 1] + [data[|data| - 1]];
    }
  }

  /** alpha = 0 freezes a new filter at the first sample. */
  lemma {:induction false} AlphaZeroHoldsFirst(f: EMA, data: seq<real>)
    requires f.alpha == 0.0 && f.isFirst && |data| > 0
    ensures forall i :: 0 <= i < |data| ==> FilterAll(f, data).outputs[i] == data[0]
    decreases |data|
  {
    if |data| > 1 {
      var before := data[..|data| - 1];
      AlphaZeroHoldsFirst(f, before);
      assert before[0] == data[0];
      var outs := FilterAll(f, data).outputs;
      assert forall i :: 0 <= i < |data| - 1 ==> outs[i] == FilterAll(f, before).outputs[i];
    }
  }

  // -------------------------------------------------------- closed form

  function Pow(x: real, n: nat): real {
    if n == 0 then 1.0 else x * Pow(x, n - 1)
  }

  /** The sum over j in [k, |data|) of a * b^(|data| - 1 - j) * data[j]. */
  function WeightedTail(a: real, b: real, data: seq<real>, k: nat): real
    requires k <= |data|
    decreases |data| - k
  {
    if k == |data| then 0.0
    else a * Pow(b, |data| - 1 - k) * data[k] + WeightedTail(a, b, data, k + 1)
  }

  /** The EMA written out as a weighted sum of all samples, with a = alpha
      and b = 1 - alpha: the first sample weighs b^(n - 1), sample j > 0
      weighs a * b^(n - 1 - j). */
  function WeightedSum(a: real, b: real, data: seq<real>): real
    requires |data| > 0
  {
    Pow(b, |data| - 1) * data[0] + WeightedTail(a, b, data, 1)
  }

  /** Appending a sample decays every earlier weight by b and adds the new one with weight a. */
  lemma {:induction false} WeightedTailSnoc(a: real, b: real, data: seq<real>, d: real, k: nat)
    requires k <= |data|
    ensures WeightedTail(a, b, data + [d], k) == b * WeightedTail(a, b, data, k) + a * d
    decreases |data| - k
  {
    var ext := data + [d];
    if k == |data| {
      assert ext[k] == d;
      assert WeightedTail(a, b, ext, k + 1) == 0.0;
      assert Pow(b, 0) == 1.0;
    } else {
      WeightedTailSnoc(a, b, data, d, k + 1);
      WeightedTailStep(a, b, data, d, k);
    }
  }

  /** The inductive step of `WeightedTailSnoc`, from index k + 1 to k. */
  lemma WeightedTailStep(a: real, b: real, data: seq<real>, d: real, k: nat)
    requires k < |data|
    requires WeightedTail(a, b, data + [d], k + 1) == b * WeightedTail(a, b, data, k + 1) + a * d
    ensures WeightedTail(a, b, data + [d], k) == b * WeightedTail(a, b, data, k) + a * d
  {
    var ext := data + [d];
    var p := Pow(b, |data| - 1 - k);
    assert Pow(b, |ext| - 1 - k) == b * p by {
      assert |ext| - 1 - k == (|data| - 1 - k) + 1;
    }
    assert ext[k] == data[k];
    assert a * (b * p) * data[k] == b * (a * p * data[k]);
  }

  /** The weighted sum obeys the EMA recurrence. */
  lemma WeightedSumSnoc(a: real, b: real, data: seq<real>, d: real)
    requires |data| > 0
    ensures WeightedSum(a, b, data + [d]) == a * d + b * WeightedSum(a, b, data)
  {
    var ext := data + [d];
    WeightedTailSnoc(a, b, data, d, 1);
    assert ext[0] == data[0];
    var p := Pow(b, |data| - 1);
    assert Pow(b, |ext| - 1) == b * p;
    assert b * p * data[0] == b * (p * data[0]);
  }

  /** Each output of a new filter is the weighted sum of the samples seen so
      far: the state machine computes the moving average it is named after. */
  lemma {:induction false} FilterAllIsWeightedSum(alpha: real, data: seq<real>)
    requires |data| > 0
    ensures FilterAll(New(alpha), data).outputs[|data| - 1] == WeightedSum(alpha, 1.0 - alpha, data)
    decreases |data|
  {
    var n := |data| - 1;
    if n == 0 {
      assert WeightedTail(alpha, 1.0 - alpha, data, 1) == 0.0;
      assert Pow(1.0 - alpha, 0) == 1.0;
    } else {
      var before := data[..n];
      FilterAllIsWeightedSum(alpha, before);
      assert data == before + [data[n]];
      LastOutputStep(New(alpha), before, data[n]);
      WeightedSumSnoc(alpha, 1.0 - alpha, before, data[n]);
    }
  }

  /** The output for one more sample follows the recurrence from the previous output. */
  lemma LastOutputStep(f: EMA, before: seq<real>, d: real)
    requires before != []
    ensures FilterAll(f, before + [d]).outputs[|before|] == Blend(f.alpha, d, FilterAll(f, before).outputs[|before| - 1])
  {
    assert (before + [d])[..|before|] == before;
  }
}

=== FILE: java_text.dfy ===
/** Idealised behaviour of the few Java library routines the acquisition core
    relies on: `String.trim`, `String.split` (with a literal separator),
    `Double.parseDouble` (plain decimal numerals only), `Double.toString` for
    the hundredths shown next to the alpha slider, and the `double`-to-`int`
    cast. Doubles are idealised as `real`s; rounding is not modelled. */
module JavaText {

  datatype Option<+T> = None | Some(value: T)

  // ---------------------------------------------------------------- trim

  /** `String.trim` strips every character whose code is at most U+0020. */
  predicate IsTrimmable(c: char) {
    c <= ' '
  }

  predicate AllTrimmable(s: string) {
    forall i :: 0 <= i < |s| ==> IsTrimmable(s[i])
  }

  /** Drops the leading run of trimmable characters. */
  function TrimLeading(s: string): (r: string)
    ensures |r| <= |s| && r == s[|s| - |r|..]
    ensures AllTrimmable(s[..|s| - |r|])
    ensures r == [] || !IsTrimmable(r[0])
    decreases |s|
  {
    if s != [] && IsTrimmable(s[0]) then
      var r := TrimLeading(s[1..]);
      LeadingStep(s, r);
      r
    else
      s
  }

  /** Drops the trailing run of trimmable characters. */
  function TrimTrailing(s: string): (r: string)
    ensures |r| <= |s| && r == s[..|r|]
    ensures AllTrimmable(s[|r|..])
    ensures r == [] || !IsTrimmable(r[|r| - 1])
    decreases |s|
  {
    if s != [] && IsTrimmable(s[|s| - 1]) then
      var r := TrimTrailing(s[..|s| - 1]);
      TrailingStep(s, r);
      r
    else
      s
  }

  /** Dropping one more leading blank keeps the suffix shape. */
  lemma LeadingStep(s: string, r: string)
    requires s != [] && IsTrimmable(s[0])
    requires |r| <= |s| - 1 && r == s[1..][|s| - 1 - |r|..] && AllTrimmable(s[1..][..|s| - 1 - |r|])
    ensures r == s[|s| - |r|..] && AllTrimmable(s[..|s| - |r|])
  {
    assert s[1..][|s| - 1 - |r|..] == s[|s| - |r|..];
    assert s[..|s| - |r|] == [s[0]] + s[1..][..|s| - 1 - |r|];
  }

  /** Dropping one more trailing blank keeps the prefix shape. */
  lemma TrailingStep(s: string, r: string)
    requires s != [] && IsTrimmable(s[|s| - 1])
    requires |r| <= |s| - 1 && r == s[..|s| - 1][..|r|] && AllTrimmable(s[..|s| - 1][|r|..])
    ensures r == s[..|r|] && AllTrimmable(s[|r|..])
  {
    assert s[..|s| - 1][..|r|] == s[..|r|];
    assert s[|r|..] == s[..|s| - 1][|r|..] + [s[|s| - 1]];
  }

  /** `String.trim`: the string without its leading and trailing characters
      at or below U+0020. */
  function Trim(s: string): (r: string)
    ensures |r| <= |s|
    ensures r == [] || (!IsTrimmable(r[0]) && !IsTrimmable(r[|r| - 1]))
  {
    TrimTrailing(TrimLeading(s))
  }

  lemma {:induction false} LeadingAbsorb(w: string, x: string)
    requires AllTrimmable(w)
    ensures TrimLeading(w + x) == TrimLeading(x)
    decreases |w|
  {
    if w == [] {
      assert w + x == x;
    } else {
      assert (w + x)[0] == w[0];
      assert (w + x)[1..] == w[1..] + x;
      LeadingAbsorb(w[1..], x);
    }
  }

  lemma {:induction false} TrailingAbsorb(x: string, w: string)
    requires AllTrimmable(w)
    ensures TrimTrailing(x + w) == TrimTrailing(x)
    decreases |w|
  {
    if w == [] {
      assert x + w == x;
    } else {
      assert (x + w)[|x + w| - 1] == w[|w| - 1];
      assert (x + w)[..|x + w| - 1] == x + w[..|w| - 1];
      TrailingAbsorb(x, w[..|w| - 1]);
    }
  }

  lemma {:induction false} LeadingAppend(x: string, y: string)
    requires TrimLeading(x) != []
    ensures TrimLeading(x + y) == TrimLeading(x) + y
    decreases |x|
  {
    assert (x + y)[0] == x[0];
    if IsTrimmable(x[0]) {
      assert (x + y)[1..] == x[1..] + y;
      LeadingAppend(x[1..], y);
    }
  }

  lemma {:induction false} TrimLeadingAll(w: string)
    requires AllTrimmable(w)
    ensures TrimLeading(w) == []
    decreases |w|
  {
    if w != [] {
      TrimLeadingAll(w[1..]);
    }
  }

  /** Trimming ignores whitespace padded around a field. */
  lemma TrimPadded(w1: string, t: string, w2: string)
    requires AllTrimmable(w1) && AllTrimmable(w2)
    ensures Trim(w1 + t + w2) == Trim(t)
  {
    assert w1 + t + w2 == w1 + (t + w2);
    LeadingAbsorb(w1, t + w2);
    if TrimLeading(t) != [] {
      LeadingAppend(t, w2);
      TrailingAbsorb(TrimLeading(t), w2);
    } else {
      assert t[..|t|] == t;
      LeadingAbsorb(t, w2);
      TrimLeadingAll(w2);
    }
  }

  /** Trimming twice is trimming once. */
  lemma TrimIdempotent(s: string)
    ensures Trim(Trim(s)) == Trim(s)
  {
  }

  // ---------------------------------------------------------------- split

  /** `sep` occurs in `s` starting at index `j`. */
  predicate OccursAt(s: string, sep: string, j: int) {
    0 <= j && j + |sep| <= |s| && forall m :: 0 <= m < |sep| ==> s[j + m] == sep[m]
  }

  /** `String.indexOf`: the first index at which a non-empty `sep` occurs. */
  function IndexOf(s: string, sep: string): (r: Option<nat>)
    requires |sep| > 0
    ensures r.Some? ==> r.value + |sep| <= |s|
  {
    IndexFrom(s, sep, 0)
  }

  /** The first occurrence of `sep` at index `k` or later. */
  function IndexFrom(s: string, sep: string, k: nat): (r: Option<nat>)
    requires |sep| > 0
    ensures r.Some? ==> k <= r.value && r.value + |sep| <= |s|
    decreases |s| - k
  {
    if k + |sep| > |s| then None
    else if OccursAt(s, sep, k) then Some(k)
    else IndexFrom(s, sep, k + 1)
  }

  lemma {:induction false} IndexFromFirst(s: string, sep: string, k: nat)
    requires |sep| > 0
    ensures IndexFrom(s, sep, k).Some? ==> OccursAt(s, sep, IndexFrom(s, sep, k).value)
    ensures IndexFrom(s, sep, k).Some? ==> forall j :: k <= j < IndexFrom(s, sep, k).value ==> !OccursAt(s, sep, j)
    ensures IndexFrom(s, sep, k).None? ==> forall j :: k <= j ==> !OccursAt(s, sep, j)
    decreases |s| - k
  {
    if k + |sep| <= |s| && !OccursAt(s, sep, k) {
      IndexFromFirst(s, sep, k + 1);
    }
  }

  /** `IndexOf` finds an occurrence, and none before it; `None` means `sep`
      does not occur at all. */
  lemma IndexOfFirst(s: string, sep: string)
    requires |sep| > 0
    ensures IndexOf(s, sep).Some? ==> OccursAt(s, sep, IndexOf(s, sep).value)
    ensures IndexOf(s, sep).Some? ==> forall j :: 0 <= j < IndexOf(s, sep).value ==> !OccursAt(s, sep, j)
    ensures IndexOf(s, sep).None? ==> forall j :: !OccursAt(s, sep, j)
  {
    IndexFromFirst(s, sep, 0);
  }

  /** The fields between the occurrences of a non-empty `sep`, leftmost
      occurrence first, keeping empty fields. */
  function RawSplit(s: string, sep: string): (r: seq<string>)
    requires |sep| > 0
    ensures |r| >= 1
    decreases |s|
  {
    match IndexOf(s, sep)
    case None => [s]
    case Some(i) => [s[..i]] + RawSplit(s[i + |sep|..], sep)
  }

  /** `String.join`: the fields with `sep` between consecutive ones. */
  function Join(fields: seq<string>, sep: string): string
    decreases |fields|
  {
    if |fields| == 0 then ""
    else if |fields| == 1 then fields[0]
    else fields[0] + sep + Join(fields[1..], sep)
  }

  /** Removes the empty fields at the end, as `split` does with limit 0. */
  function DropTrailingEmpty(fields: seq<string>): (r: seq<string>)
    ensures r <= fields
    ensures forall k :: |r| <= k < |fields| ==> fields[k] == []
    ensures r == [] || r[|r| - 1] != []
    decreases |fields|
  {
    if fields != [] && fields[|fields| - 1] == [] then
      DropTrailingEmpty(fields[..|fields| - 1])
    else
      fields
  }

  /** `String.split(sep)` with `sep` read as a literal: with an empty
      separator every character is a field (the empty string gives one empty
      field); if `sep` does not occur the whole string is the only field;
      otherwise the fields between occurrences, without the empty ones at
      the end. */
  function Split(s: string, sep: string): (r: seq<string>)
    ensures sep == [] && s != [] ==> |r| == |s| && forall i :: 0 <= i < |s| ==> r[i] == [s[i]]
    ensures sep == [] && s == [] ==> r == [s]
    ensures |sep| > 0 ==> r <= RawSplit(s, sep)
    ensures |sep| > 0 ==> forall k :: |r| <= k < |RawSplit(s, sep)| ==> RawSplit(s, sep)[k] == []
    ensures |sep| > 0 && IndexOf(s, sep).Some? ==> r == [] || r[|r| - 1] != []
    ensures |sep| > 0 && IndexOf(s, sep).None? ==> r == [s]
  {
    if sep == [] then
      if s == [] then [s] else seq(|s|, i requires 0 <= i < |s| => [s[i]])
    else if IndexOf(s, sep).None? then
      [s]
    else
      DropTrailingEmpty(RawSplit(s, sep))
  }

  /** Joining the fields of a split gives back the string. */
  lemma {:induction false} JoinRawSplit(s: string, sep: string)
    requires |sep| > 0
    ensures Join(RawSplit(s, sep), sep) == s
    decreases |s|
  {
    var found := IndexOf(s, sep);
    if found.Some? {
      var i := found.value;
      var rest := s[i + |sep|..];
      var tail := RawSplit(rest, sep);
      calc {
        Join(RawSplit(s, sep), sep);
      == { RawSplitFound(s, sep, i); }
        Join([s[..i]] + tail, sep);
      == { JoinCons(s[..i], tail, sep); }
        s[..i] + sep + Join(tail, sep);
      == { JoinRawSplit(rest, sep); }
        s[..i] + sep + rest;
      == { IndexOfFirst(s, sep); SplitAround(s, sep, i); }
        s;
      }
    }
  }

  lemma RawSplitFound(s: string, sep: string, i: nat)
    requires |sep| > 0 && IndexOf(s, sep) == Some(i)
    ensures i + |sep| <= |s|
    ensures RawSplit(s, sep) == [s[..i]] + RawSplit(s[i + |sep|..], sep)
  {
    match IndexOf(s, sep)
    case Some(j) =>
      assert j == i;
  }

  lemma SplitAround(s: string, sep: string, i: nat)
    requires OccursAt(s, sep, i)
    ensures s[..i] + sep + s[i + |sep|..] == s
  {
    assert s == s[..i] + s[i..i + |sep|] + s[i + |sep|..];
  }

  lemma JoinCons(a: string, tail: seq<string>, sep: string)
    requires |tail| >= 1
    ensures Join([a] + tail, sep) == a + sep + Join(tail, sep)
  {
    assert ([a] + tail)[1..] == tail;
  }

  /** The first occurrence of `sep` in `a + sep + b` is right after `a`
      when `a` does not contain the first character of `sep`. */
  lemma FirstOccurrence(a: string, sep: string, b: string)
    requires |sep| > 0 && sep[0] !in a
    ensures IndexOf(a + sep + b, sep) == Some(|a|)
  {
    var s := a + sep + b;
    assert s[|a|..|a| + |sep|] == sep;
    assert OccursAt(s, sep, |a|);
    forall j | 0 <= j < |a|
      ensures !OccursAt(s, sep, j)
    {
      assert s[j] == a[j] != sep[0];
      assert j + |sep| <= |s| ==> s[j..j + |sep|][0] == s[j];
    }
    IndexOfFirst(s, sep);
  }

  /** A string that does not contain the first character of `sep` holds no
      occurrence of it. */
  lemma NoOccurrence(a: string, sep: string)
    requires |sep| > 0 && sep[0] !in a
    ensures IndexOf(a, sep) == None
  {
    forall j | 0 <= j < |a|
      ensures !OccursAt(a, sep, j)
    {
      assert a[j] != sep[0];
      assert j + |sep| <= |a| ==> a[j..j + |sep|][0] == a[j];
    }
    IndexOfFirst(a, sep);
  }

  /** Splitting a joined sequence of fields gives back the fields, provided
      no field contains the separator's first character. */
  lemma {:induction false} RawSplitJoin(fields: seq<string>, sep: string)
    requires |fields| >= 1 && |sep| > 0
    requires forall k :: 0 <= k < |fields| ==> sep[0] !in fields[k]
    ensures RawSplit(Join(fields, sep), sep) == fields
    decreases |fields|
  {
    if |fields| == 1 {
      NoOccurrence(fields[0], sep);
    } else {
      RawSplitCons(fields[0], sep, Join(fields[1..], sep));
      RawSplitJoin(fields[1..], sep);
      assert fields == [fields[0]] + fields[1..];
    }
  }

  /** A field free of the separator's first character, followed by the
      separator, splits off as the first field. */
  lemma RawSplitCons(a: string, sep: string, b: string)
    requires |sep| > 0 && sep[0] !in a
    ensures RawSplit(a + sep + b, sep) == [a] + RawSplit(b, sep)
  {
    FirstOccurrence(a, sep, b);
    var s := a + sep + b;
    assert s[..|a|] == a;
    assert s[|a| + |sep|..] == b;
  }

  /** Appending a separator and more text to joined fields adds fields
      after them and leaves them untouched. */
  lemma {:induction false} RawSplitAppend(fields: seq<string>, sep: string, extra: string)
    requires |fields| >= 1 && |sep| > 0
    requires forall k :: 0 <= k < |fields| ==> sep[0] !in fields[k]
    ensures RawSplit(Join(fields, sep) + sep + extra, sep) == fields + RawSplit(extra, sep)
    decreases |fields|
  {
    if |fields| == 1 {
      assert Join(fields, sep) == fields[0];
      RawSplitCons(fields[0], sep, extra);
      assert fields == [fields[0]];
    } else {
      var rest := fields[1..];
      forall k | 0 <= k < |rest|
        ensures sep[0] !in rest[k]
      {
        assert rest[k] == fields[k + 1];
      }
      RawSplitAppend(rest, sep, extra);
      RawSplitAppendStep(fields, sep, extra);
    }
  }

  lemma RawSplitAppendStep(fields: seq<string>, sep: string, extra: string)
    requires |fields| >= 2 && |sep| > 0 && sep[0] !in fields[0]
    requires RawSplit(Join(fields[1..], sep) + sep + extra, sep) == fields[1..] + RawSplit(extra, sep)
    ensures RawSplit(Join(fields, sep) + sep + extra, sep) == fields + RawSplit(extra, sep)
  {
    var tail := Join(fields[1..], sep) + sep + extra;
    var later := RawSplit(extra, sep);
    calc {
      RawSplit(Join(fields, sep) + sep + extra, sep);
    == { JoinRegroup(fields, sep, extra); }
      RawSplit(fields[0] + sep + tail, sep);
    == { RawSplitCons(fields[0], sep, tail); }
      [fields[0]] + RawSplit(tail, sep);
    ==
      [fields[0]] + (fields[1..] + later);
    == { assert fields == [fields[0]] + fields[1..]; }
      fields + later;
    }
  }

  lemma JoinRegroup(fields: seq<string>, sep: string, extra: string)
    requires |fields| >= 2
    ensures Join(fields, sep) + sep + extra == fields[0] + sep + (Join(fields[1..], sep) + sep + extra)
  {
  }

  // ---------------------------------------------------------------- numbers

  predicate IsDigit(c: char) {
    '0' <= c <= '9'
  }

  predicate AllDigits(s: string) {
    forall i :: 0 <= i < |s| ==> IsDigit(s[i])
  }

  function DigitChar(d: nat): (c: char)
    requires d < 10
    ensures IsDigit(c) && DigitValue(c) == d
  {
    ('0' as int + d) as char
  }

  /** The value of one character read as a decimal digit. */
  function DigitValue(c: char): int {
    (c as int) - ('0' as int)
  }

  /** The number a string of decimal digits denotes (only meaningful when
      every character is a digit). */
  function DigitsValue(s: string): int
    decreases |s|
  {
    if s == [] then 0
    else DigitsValue(s[..|s| - 1]) * 10 + DigitValue(s[|s| - 1])
  }

  /** The value of a numeral with digits `whole` before its point and
      digits `frac` after it. */
  function PointValue(whole: string, frac: string): real {
    DigitsValue(whole) as real + FracValue(frac)
  }

  /** The value of the digits after a decimal point: "25" is 0.25. */
  function FracValue(s: string): real
    decreases |s|
  {
    if s == [] then 0.0
    else (DigitValue(s[0]) as real + FracValue(s[1..])) / 10.0
  }

  /** Index of the first '.' in `s`, or `|s|` if there is none. */
  function DotIndex(s: string): (i: nat)
    ensures i <= |s|
    ensures forall j :: 0 <= j < i ==> s[j] != '.'
    ensures i < |s| ==> s[i] == '.'
  {
    if s == [] then 0
    else if s[0] == '.' then 0
    else 1 + DotIndex(s[1..])
  }

  /** An unsigned decimal numeral: digits, optionally followed by '.' and
      more digits, with at least one digit in all ("7", "7.", ".5", "7.25"). */
  function ParseUnsigned(s: string): Option<real>
  {
    var i := DotIndex(s);
    ParseParts(s[..i], if i < |s| then s[i + 1..] else "")
  }

  /** The value of a numeral's digits before and after its point, if both
      parts are digits and there is at least one digit. */
  function ParseParts(whole: string, frac: string): (r: Option<real>)
    ensures r.Some? <==> AllDigits(whole) && AllDigits(frac) && |whole| + |frac| > 0
  {
    if AllDigits(whole) && AllDigits(frac) && |whole| + |frac| > 0 then
      Some(PointValue(whole, frac))
    else
      None
  }

  /** The numeral without its sign, if it has one. */
  function Unsigned(s: string): string {
    if s != [] && (s[0] == '-' || s[0] == '+') then s[1..] else s
  }

  /** An optionally signed decimal numeral. */
  function ParseDecimal(s: string): Option<real>
  {
    var magnitude := ParseUnsigned(Unsigned(s));
    if magnitude.Some? && s != [] && s[0] == '-' then Some(-magnitude.value) else magnitude
  }

  /** `Double.parseDouble`, which trims its argument before reading a
      decimal numeral; `None` stands for `NumberFormatException`. */
  function ParseDouble(s: string): (r: Option<real>)
    ensures Trim(s) == [] ==> r == None
  {
    ParseDecimal(Trim(s))
  }

  /** A numeral's value with its sign applied. */
  function Signed(sign: string, v: real): real {
    if sign == "-" then -v else v
  }

  /** Blanks around a string never change what `parseDouble` reads. */
  lemma ParseDoublePadded(w1: string, s: string, w2: string)
    requires AllTrimmable(w1) && AllTrimmable(w2)
    ensures ParseDouble(w1 + s + w2) == ParseDouble(s)
  {
    TrimPadded(w1, s, w2);
    TrimPadded([], s, []);
    assert [] + s + [] == s;
  }

  /** The first '.' after a run of digits is right after them. */
  lemma {:induction false} DotIndexAfterDigits(w: string, rest: string)
    requires AllDigits(w)
    ensures DotIndex(w + rest) == |w| + DotIndex(rest)
    decreases |w|
  {
    if w == [] {
      assert w + rest == rest;
    } else {
      var s := w + rest;
      assert s[0] == w[0] && IsDigit(w[0]);
      assert s[1..] == w[1..] + rest;
      assert AllDigits(w[1..]);
      DotIndexAfterDigits(w[1..], rest);
    }
  }

  /** A numeral with a point: digits, '.', digits, at least one digit in all. */
  lemma UnsignedPointNumeral(whole: string, frac: string)
    requires AllDigits(whole) && AllDigits(frac) && |whole| + |frac| > 0
    ensures ParseUnsigned(whole + "." + frac) == Some(PointValue(whole, frac))
  {
    var u := whole + "." + frac;
    assert u == whole + ("." + frac);
    DotIndexAfterDigits(whole, "." + frac);
    assert u[..|whole|] == whole;
    assert u[|whole| + 1..] == frac;
    UnsignedFields(u, |whole|, whole, frac);
  }

  /** Reading a sign followed by an unsigned numeral `u` that starts with a
      digit or a point. */
  lemma SignedBody(sign: string, u: string)
    requires sign == "" || sign == "+" || sign == "-"
    requires u != [] && (IsDigit(u[0]) || u[0] == '.')
    requires ParseUnsigned(u).Some?
    ensures ParseDecimal(sign + u) == Some(Signed(sign, ParseUnsigned(u).value))
  {
    SignSplit(sign, u);
  }

  /** Where a sign ends and the unsigned numeral after it begins. */
  lemma SignSplit(sign: string, u: string)
    requires sign == "" || sign == "+" || sign == "-"
    requires u != [] && (IsDigit(u[0]) || u[0] == '.')
    ensures Unsigned(sign + u) == u
    ensures sign + u != [] && ((sign + u)[0] == '-' <==> sign == "-")
  {
    var s := sign + u;
    if sign == "" {
      assert s == u;
    } else {
      assert s[0] == sign[0];
      assert s[1..] == u;
    }
  }

  /** The whole signed grammar with a point: an optional sign, digits, '.',
      and digits, with at least one digit, reads as its signed value
      ("-0.25", "+.5", "12.", "3.75"). */
  lemma ParseSignedPoint(sign: string, whole: string, frac: string)
    requires sign == "" || sign == "+" || sign == "-"
    requires AllDigits(whole) && AllDigits(frac) && |whole| + |frac| > 0
    ensures ParseDouble(sign + whole + "." + frac) == Some(Signed(sign, PointValue(whole, frac)))
  {
    var u := whole + "." + frac;
    UnsignedPointNumeral(whole, frac);
    PointNumeralShape(sign, whole, frac);
    ParseSigned(sign, u, sign + whole + "." + frac);
  }

  /** A signed numeral read through `parseDouble`. */
  lemma ParseSigned(sign: string, u: string, s: string)
    requires sign == "" || sign == "+" || sign == "-"
    requires s == sign + u && u != [] && (IsDigit(u[0]) || u[0] == '.')
    requires !IsTrimmable(s[0]) && !IsTrimmable(s[|s| - 1])
    requires ParseUnsigned(u).Some?
    ensures ParseDouble(s) == Some(Signed(sign, ParseUnsigned(u).value))
  {
    TrimUnpadded(s);
    SignedBody(sign, u);
  }

  /** A signed numeral with a point has no blank at either end and its
      unsigned part starts with a digit or the point. */
  lemma PointNumeralShape(sign: string, whole: string, frac: string)
    requires sign == "" || sign == "+" || sign == "-"
    requires AllDigits(whole) && AllDigits(frac)
    ensures sign + whole + "." + frac == sign + (whole + "." + frac)
    ensures var u := whole + "." + frac; u != [] && (IsDigit(u[0]) || u[0] == '.')
    ensures var s := sign + (whole + "." + frac); !IsTrimmable(s[0]) && !IsTrimmable(s[|s| - 1])
  {
    var u := whole + "." + frac;
    var s := sign + u;
    assert u[0] == (if whole == [] then '.' else whole[0]);
    assert s[|s| - 1] == (if frac == [] then '.' else frac[|frac| - 1]);
    assert s[0] == (if sign == [] then u[0] else sign[0]);
  }

  /** The signed grammar without a point: an optional sign and at least one
      digit read as the signed integer ("+3", "-12", "512"). */
  lemma ParseSignedDigits(sign: string, whole: string)
    requires sign == "" || sign == "+" || sign == "-"
    requires |whole| > 0 && AllDigits(whole)
    ensures ParseDouble(sign + whole) == Some(Signed(sign, DigitsValue(whole) as real))
  {
    var s := sign + whole;
    assert s[|s| - 1] == whole[|whole| - 1];
    assert s[0] == (if sign == [] then whole[0] else sign[0]);
    UnsignedNumeral(whole);
    ParseSigned(sign, whole, s);
  }

  /** Values of texts one may type into the alpha box. */
  lemma ParseNegativeQuarter()
    ensures ParseDouble("-0.25") == Some(-0.25)
  {
    assert PointValue("0", "25") == 0.25 by {
      assert FracValue("25") == 0.25 by {
        assert "25"[1..] == "5";
        assert FracValue("5") == 0.5 by { assert "5"[1..] == ""; }
      }
      assert DigitsValue("0") == 0 by { assert "0"[..0] == ""; }
    }
    calc {
      ParseDouble("-0.25");
    == { assert "-" + "0" + "." + "25" == "-0.25"; ParseSignedPoint("-", "0", "25"); }
      Some(Signed("-", PointValue("0", "25")));
    }
  }

  lemma ParsePlusThree()
    ensures ParseDouble("+3") == Some(3.0)
  {
    ParseSignedDigits("+", "3");
    assert "+" + "3" == "+3";
    assert DigitsValue("3") == 3 by { assert "3"[..0] == ""; }
  }

  lemma ParsePaddedFraction()
    ensures ParseDouble(" 12.5 ") == Some(12.5)
  {
    assert PointValue("12", "5") == 12.5 by {
      assert FracValue("5") == 0.5 by { assert "5"[1..] == ""; }
      assert DigitsValue("12") == 12 by {
        assert "12"[..1] == "1";
        assert DigitsValue("1") == 1 by { assert "1"[..0] == ""; }
      }
    }
    calc {
      ParseDouble(" 12.5 ");
    == { assert " " + "12.5" + " " == " 12.5 "; ParseDoublePadded(" ", "12.5", " "); }
      ParseDouble("12.5");
    == { assert "" + "12" + "." + "5" == "12.5"; ParseSignedPoint("", "12", "5"); }
      Some(Signed("", PointValue("12", "5")));
    }
  }

  /** The shortest decimal numeral of a natural, as `Double.toString` writes
      the integer part of a number. */
  function FormatNat(n: nat): (r: string)
    ensures |r| >= 1 && AllDigits(r)
    ensures DigitsValue(r) == n
    ensures r[0] != '0' || n == 0
  {
    if n < 10 then [DigitChar(n)]
    else
      var r := FormatNat(n / 10) + [DigitChar(n % 10)];
      assert r[..|r| - 1] == FormatNat(n / 10);
      r
  }

  /** A string made of digits is its own trim. */
  lemma TrimDigits(s: string)
    requires |s| >= 1 && AllDigits(s)
    ensures Trim(s) == s
  {
  }

  lemma {:induction false} DotIndexOfDigits(s: string)
    requires AllDigits(s)
    ensures DotIndex(s) == |s|
  {
    if s != [] {
      assert s[0] != '.';
      DotIndexOfDigits(s[1..]);
    }
  }

  lemma UnsignedBody(s: string)
    requires s != [] && IsDigit(s[0])
    ensures ParseDecimal(s) == ParseUnsigned(s)
  {
    assert Unsigned(s) == s;
  }

  lemma UnsignedNumeral(s: string)
    requires |s| >= 1 && AllDigits(s)
    ensures ParseUnsigned(s) == Some(DigitsValue(s) as real)
  {
    DotIndexOfDigits(s);
    assert s[..|s|] == s;
    assert FracValue("") == 0.0;
  }

  lemma DecimalNumeral(s: string)
    requires |s| >= 1 && AllDigits(s)
    ensures ParseDecimal(s) == Some(DigitsValue(s) as real)
  {
    UnsignedBody(s);
    UnsignedNumeral(s);
  }

  /** A non-empty string of digits reads as the number it denotes. */
  lemma ParseNumeral(s: string)
    requires |s| >= 1 && AllDigits(s)
    ensures ParseDouble(s) == Some(DigitsValue(s) as real)
  {
    TrimDigits(s);
    DecimalNumeral(s);
  }

  /** Trimming keeps a string that starts with a non-blank character
      starting with it. */
  lemma TrimKeepsFirst(s: string)
    requires s != [] && !IsTrimmable(s[0])
    ensures Trim(s) != [] && Trim(s)[0] == s[0]
  {
    assert TrimLeading(s) == s;
  }

  /** A numeral cannot start with a character other than a sign, a digit or
      a point. */
  lemma ParseNonNumeric(s: string)
    requires s != [] && !IsDigit(s[0]) && s[0] !in "+-."
    ensures ParseDecimal(s) == None
  {
    assert Unsigned(s) == s;
    var i := DotIndex(s);
    assert i >= 1;
    assert s[..i][0] == s[0];
  }

  /** Only the decimal grammar is read: a numeral that reads as a number is
      an optional sign, then digits, then optionally a point and more
      digits, with at least one digit in all. */
  lemma ParseDecimalShape(t: string) returns (sign: string, whole: string, frac: string)
    requires ParseDecimal(t).Some?
    ensures sign == "" || sign == "+" || sign == "-"
    ensures AllDigits(whole) && AllDigits(frac) && |whole| + |frac| > 0
    ensures t == sign + whole + "." + frac || (frac == "" && t == sign + whole)
  {
    var u := Unsigned(t);
    sign := SignOf(t);
    var i := DotIndex(u);
    whole := u[..i];
    frac := if i < |u| then u[i + 1..] else "";
    assert ParseParts(whole, frac).Some?;
    if i < |u| {
      DotSplit(sign, u, i);
    } else {
      assert u[..i] == u;
    }
  }

  /** The sign `Unsigned` strips from a numeral, as text. */
  function SignOf(t: string): (sign: string)
    ensures sign == "" || sign == "+" || sign == "-"
    ensures t == sign + Unsigned(t)
  {
    if t != [] && (t[0] == '-' || t[0] == '+') then
      assert t == t[..1] + t[1..];
      t[..1]
    else
      []
  }

  lemma DotSplit(sign: string, u: string, i: nat)
    requires i < |u| && u[i] == '.'
    ensures sign + u == sign + u[..i] + "." + u[i + 1..]
  {
    assert u == u[..i] + [u[i]] + u[i + 1..];
  }

  /** Text that `parseDouble` accepts is, once trimmed, a decimal numeral. */
  lemma ParseDoubleShape(s: string) returns (sign: string, whole: string, frac: string)
    requires ParseDouble(s).Some?
    ensures sign == "" || sign == "+" || sign == "-"
    ensures AllDigits(whole) && AllDigits(frac) && |whole| + |frac| > 0
    ensures Trim(s) == sign + whole + "." + frac || (frac == "" && Trim(s) == sign + whole)
  {
    sign, whole, frac := ParseDecimalShape(Trim(s));
  }

  /** After its first character, a numeral that reads as a number holds
      only digits and at most one point. */
  lemma NumeralChars(t: string)
    requires ParseDecimal(t).Some?
    ensures forall k :: 0 < k < |t| ==> IsDigit(t[k]) || t[k] == '.'
    ensures forall j, k :: 0 <= j < k < |t| && t[j] == '.' ==> t[k] != '.'
  {
    var u := Unsigned(t);
    assert ParseUnsigned(u).Some?;
    UnsignedChars(u);
    SignedChars(t, SignOf(t), u, DotIndex(u));
  }

  /** A numeral that reads as a number has no point after its first one. */
  lemma OnePoint(t: string, j: int, k: int)
    requires ParseDecimal(t).Some?
    requires 0 <= j < k < |t| && t[j] == '.'
    ensures t[k] != '.'
  {
    NumeralChars(t);
  }

  /** An unsigned numeral that reads as a number has digits everywhere but
      at its first point, which is its only one. */
  lemma UnsignedChars(u: string)
    requires ParseUnsigned(u).Some?
    ensures forall m :: 0 <= m < |u| ==> IsDigit(u[m]) || u[m] == '.'
    ensures forall m :: 0 <= m < |u| && u[m] == '.' ==> m == DotIndex(u)
  {
    var i := DotIndex(u);
    var whole := u[..i];
    var frac := if i < |u| then u[i + 1..] else "";
    assert ParseParts(whole, frac).Some?;
    forall m | 0 <= m < |u| && m != i
      ensures IsDigit(u[m])
    {
      if m < i {
        assert u[m] == whole[m];
      } else {
        assert u[m] == frac[m - i - 1];
      }
    }
  }

  /** A sign in front keeps "digits and one point" from position 1 on. */
  lemma SignedChars(t: string, sign: string, u: string, i: int)
    requires t == sign + u && (sign == "" || sign == "+" || sign == "-")
    requires forall m :: 0 <= m < |u| ==> IsDigit(u[m]) || u[m] == '.'
    requires forall m :: 0 <= m < |u| && u[m] == '.' ==> m == i
    ensures forall k :: 0 < k < |t| ==> IsDigit(t[k]) || t[k] == '.'
    ensures forall j, k :: 0 <= j < k < |t| && t[j] == '.' ==> t[k] != '.'
  {
    forall k | |sign| <= k < |t|
      ensures t[k] == u[k - |sign|]
    {
    }
    assert sign != [] ==> t[0] != '.';
  }

  /** Corrupted numerals are rejected, not read in part. */
  lemma ParseTrailingLetter()
    ensures ParseDouble("12abc") == None
  {
    var t := "12abc";
    if ParseDouble(t).Some? {
      TrimUnpadded(t);
      NumeralChars(t);
    }
  }

  lemma ParseSecondPoint()
    ensures ParseDouble("1.2.3") == None
  {
    var t := "1.2.3";
    if ParseDouble(t).Some? {
      TrimUnpadded(t);
      OnePoint(t, 1, 3);
    }
  }

  lemma ParseTrailingSign()
    ensures ParseDouble("5-") == None
  {
    var t := "5-";
    if ParseDouble(t).Some? {
      TrimUnpadded(t);
      NumeralChars(t);
    }
  }

  lemma ParseInnerBlank()
    ensures ParseDouble("1 2") == None
  {
    var t := "1 2";
    if ParseDouble(t).Some? {
      TrimUnpadded(t);
      NumeralChars(t);
    }
  }

  /** Reading back a formatted natural gives the natural. */
  lemma ParseFormatNat(n: nat)
    ensures ParseDouble(FormatNat(n)) == Some(n as real)
  {
    ParseNumeral(FormatNat(n));
  }

  /** The hundredths `f` (0..99) after the point, with a trailing zero
      dropped but at least one digit kept: "0", "05", "5", "25". */
  function Hundredths(f: int): (r: string)
    requires 0 <= f < 100
    ensures AllDigits(r) && 1 <= |r| <= 2
  {
    if f % 10 == 0 then [DigitChar(f / 10)] else [DigitChar(f / 10), DigitChar(f % 10)]
  }

  /** `Double.toString(k / 100.0)` for a slider position `k` in 0..100: the
      integer part, a '.', then the hundredths ("0.0", "0.05", "0.5", "1.0"). */
  function FormatHundredths(k: int): (r: string)
    requires 0 <= k <= 100
    ensures 3 <= |r| <= 4 && r[1] == '.'
    ensures IsDigit(r[0]) && AllDigits(r[2..])
    ensures |r| == 3 <==> k % 10 == 0
  {
    FormatNat(k / 100) + "." + Hundredths(k % 100)
  }

  /** A string with no trimmable character at either end is its own trim. */
  lemma TrimUnpadded(s: string)
    requires s != [] && !IsTrimmable(s[0]) && !IsTrimmable(s[|s| - 1])
    ensures Trim(s) == s
  {
  }

  /** The unsigned reading of a numeral split at its first '.'. */
  lemma UnsignedFields(s: string, i: nat, whole: string, frac: string)
    requires DotIndex(s) == i < |s| && s[..i] == whole && s[i + 1..] == frac
    requires AllDigits(whole) && AllDigits(frac) && |whole| + |frac| > 0
    ensures ParseUnsigned(s) == Some(PointValue(whole, frac))
  {
    calc {
      ParseUnsigned(s);
    ==
      ParseParts(s[..i], s[i + 1..]);
    ==
      ParseParts(whole, frac);
    ==
      Some(PointValue(whole, frac));
    }
  }

  /** A one-digit whole part, a '.', and digits read as a decimal fraction. */
  lemma ParsePointNumeral(whole: string, frac: string)
    requires |whole| == 1 && IsDigit(whole[0]) && AllDigits(frac)
    ensures ParseDouble(whole + "." + frac) == Some(PointValue(whole, frac))
  {
    var s := whole + "." + frac;
    assert s[0] == whole[0];
    calc {
      ParseDouble(s);
    == { TrimUnpadded(s); }
      ParseDecimal(s);
    == { UnsignedBody(s); }
      ParseUnsigned(s);
    == { UnsignedPointNumeral(whole, frac); }
      Some(PointValue(whole, frac));
    }
  }

  lemma FracOneDigit(d: nat)
    requires d < 10
    ensures FracValue([DigitChar(d)]) == d as real / 10.0
  {
    assert [DigitChar(d)][1..] == [];
  }

  lemma FracTwoDigits(d: nat, e: nat)
    requires d < 10 && e < 10
    ensures FracValue([DigitChar(d), DigitChar(e)]) == (d as real + e as real / 10.0) / 10.0
  {
    assert [DigitChar(d), DigitChar(e)][1..] == [DigitChar(e)];
    FracOneDigit(e);
  }

  lemma HundredthsValue(f: int)
    requires 0 <= f < 100
    ensures FracValue(Hundredths(f)) == f as real / 100.0
  {
    if f % 10 == 0 {
      FracOneDigit(f / 10);
    } else {
      FracTwoDigits(f / 10, f % 10);
    }
  }

  lemma SmallFormatNat(n: nat)
    requires n < 10
    ensures |FormatNat(n)| == 1 && IsDigit(FormatNat(n)[0]) && DigitsValue(FormatNat(n)) == n
  {
  }

  /** Reading back the slider's text gives the slider's alpha. */
  lemma ParseFormatHundredths(k: int)
    requires 0 <= k <= 100
    ensures ParseDouble(FormatHundredths(k)) == Some(k as real / 100.0)
  {
    var whole := FormatNat(k / 100);
    var frac := Hundredths(k % 100);
    SmallFormatNat(k / 100);
    calc {
      ParseDouble(FormatHundredths(k));
    ==
      ParseDouble(whole + "." + frac);
    == { ParsePointNumeral(whole, frac); }
      Some(PointValue(whole, frac));
    ==
      Some(DigitsValue(whole) as real + FracValue(frac));
    == { HundredthsValue(k % 100); }
      Some((k / 100) as real + (k % 100) as real / 100.0);
    == { SplitHundredths(k); }
      Some(k as real / 100.0);
    }
  }

  lemma SplitHundredths(k: int)
    requires 0 <= k <= 100
    ensures (k / 100) as real + (k % 100) as real / 100.0 == k as real / 100.0
  {
    if k == 100 {
      assert k / 100 == 1 && k % 100 == 0;
    } else {
      assert k / 100 == 0 && k % 100 == k;
    }
  }

  // ---------------------------------------------------------------- int cast

  const IntMin: int := -0x8000_0000
  const IntMax: int := 0x7FFF_FFFF

  /** The `(int)` cast of a double (`Double.intValue`): rounds toward zero and
      saturates at the 32-bit bounds. */
  function IntValue(r: real): (n: int)
    ensures IntMin <= n <= IntMax
    ensures 0.0 <= r <= IntMax as real ==> n as real <= r < n as real + 1.0
    ensures IntMin as real <= r <= 0.0 ==> n as real - 1.0 < r <= n as real
    ensures r >= IntMax as real ==> n == IntMax
    ensures r <= IntMin as real ==> n == IntMin
  {
    if r >= IntMax as real then IntMax
    else if r <= IntMin as real then IntMin
    else if r >= 0.0 then r.Floor
    else -((-r).Floor)
  }
}

=== FILE: serial_data_collection.dfy ===
/** The serial-port data source: a connection state machine over the
    outcome of the port-open attempt, and the assembly of one line of bytes
    per data-available event. The serial library's calls are replaced by
    their outcomes: the result of opening a port is a parameter, and the
    bytes an event can read are an input sequence. */
module SerialDataCollection {
  import opened DataCollectionInterface
  import opened JavaText

  /** Capacity of the receive buffer, in bytes. */
  const BufferSize: nat := 1024

  /** The code of the line terminator '\n'. */
  const NewLine: int := 10

  type Byte = b: int | 0 <= b < 256

  /** The source's state: whether it holds an open port, and the length of
      its (final) receive buffer. */
  datatype SerialSource = SerialSource(isConnected: bool, bufferLength: nat)

  /** A new source is disconnected, with a 1024-byte buffer. */
  function New(): (s: SerialSource)
    ensures !s.isConnected && s.bufferLength == BufferSize
  {
    SerialSource(false, BufferSize)
  }

  function IsConnected(s: SerialSource): (b: bool)
    ensures b <==> s.isConnected
  {
    s.isConnected
  }

  // ---------------------------------------------------------------- ports

  /** The kinds of port the serial library enumerates. */
  datatype PortType = PortSerial | PortParallel | PortI2C | PortRS485 | PortRaw

  datatype PortIdentifier = PortIdentifier(name: string, portType: PortType)

  function Names(ports: seq<PortIdentifier>): (r: seq<string>)
    ensures |r| == |ports| && forall i :: 0 <= i < |r| ==> r[i] == ports[i].name
  {
    seq(|ports|, i requires 0 <= i < |ports| => ports[i].name)
  }

  /** `getComLinks`: the names of the serial ports among the enumerated
      ones, in enumeration order. */
  function GetComLinks(ports: seq<PortIdentifier>): (r: seq<string>)
    ensures ListingContract(r, Names(ports))
    ensures (forall k :: 0 <= k < |ports| ==> ports[k].portType != PortSerial) <==> r == []
    decreases |ports|
  {
    if ports == [] then []
    else
      var rest := GetComLinks(ports[1..]);
      assert Names(ports[1..]) == Names(ports)[1..];
      if ports[0].portType == PortSerial then
        assert ([ports[0].name] + rest)[1..] == rest;
        [ports[0].name] + rest
      else
        rest
  }

  /** Listing two enumerations one after the other lists the first's serial
      ports, then the second's. */
  lemma {:induction false} GetComLinksAppend(a: seq<PortIdentifier>, b: seq<PortIdentifier>)
    ensures GetComLinks(a + b) == GetComLinks(a) + GetComLinks(b)
    decreases |a|
  {
    if a != [] {
      assert (a + b)[1..] == a[1..] + b;
      GetComLinksAppend(a[1..], b);
      var head := if a[0].portType == PortSerial then [a[0].name] else [];
      assert GetComLinks(a + b) == head + GetComLinks(a[1..] + b);
      assert GetComLinks(a) == head + GetComLinks(a[1..]);
      assert head + (GetComLinks(a[1..]) + GetComLinks(b)) == (head + GetComLinks(a[1..])) + GetComLinks(b);
    } else {
      assert a + b == b;
      assert GetComLinks(a) == [];
    }
  }

  /** Every serial port's name is listed. */
  lemma {:induction false} SerialPortListed(ports: seq<PortIdentifier>, k: nat)
    requires k < |ports| && ports[k].portType == PortSerial
    ensures ports[k].name in GetComLinks(ports)
    decreases k
  {
    if k > 0 {
      SerialPortListed(ports[1..], k - 1);
    }
  }

  // ---------------------------------------------------------------- connect

  /** How the library's attempt to open the named port ends: it opens a
      serial port and registers the listener; finds the port already owned;
      opens a port that is not serial; or throws. */
  datatype OpenOutcome =
    | Opened
    | AlreadyOwned
    | NotSerial
    | PortInUse
    | IoFailure
    | NoSuchPort
    | OtherFailure

  /** The exceptions `serialConnect` lets escape. */
  datatype ConnectException = PortInUseException | IOException | NoSuchPortException | OtherException

  datatype Attempt = Attempt(source: SerialSource, thrown: Option<ConnectException>)

  /** `serialConnect`: only a serial port that opens connects; an owned or
      non-serial port is reported on the console and nothing is thrown. */
  function SerialConnect(s: SerialSource, outcome: OpenOutcome): (r: Attempt)
    ensures r.source.bufferLength == s.bufferLength
    ensures r.source.isConnected <==> s.isConnected || outcome == Opened
    ensures r.thrown.None? <==> outcome in {Opened, AlreadyOwned, NotSerial}
  {
    match outcome
    case Opened => Attempt(s.(isConnected := true), None)
    case AlreadyOwned => Attempt(s, None)
    case NotSerial => Attempt(s, None)
    case PortInUse => Attempt(s, Some(PortInUseException))
    case IoFailure => Attempt(s, Some(IOException))
    case NoSuchPort => Attempt(s, Some(NoSuchPortException))
    case OtherFailure => Attempt(s, Some(OtherException))
  }

  datatype ConnectStep = ConnectStep(source: SerialSource, result: ConnectionResult)

  /** `connect(comLink)`: a connected source makes no attempt and reports
      success; otherwise `tryOpen(comLink)` is how opening that port ends,
      and the exception, if any, picks the reported failure. */
  function Connect(s: SerialSource, comLink: string, tryOpen: string -> OpenOutcome): (r: ConnectStep)
    ensures r.source.bufferLength == s.bufferLength
    ensures s.isConnected ==> r == ConnectStep(s, ConnectionOk)
    ensures !s.isConnected ==> (r.source.isConnected <==> tryOpen(comLink) == Opened)
    ensures !s.isConnected ==> (r.result == ConnectionBusy <==> tryOpen(comLink) == PortInUse)
    ensures !s.isConnected ==> (r.result == ConnectionIoError <==> tryOpen(comLink) == IoFailure)
    ensures !s.isConnected ==> (r.result == ConnectionError <==> tryOpen(comLink) in {NoSuchPort, OtherFailure})
    ensures !s.isConnected ==> (r.result == ConnectionOk <==> tryOpen(comLink) in {Opened, AlreadyOwned, NotSerial})
  {
    if s.isConnected then ConnectStep(s, ConnectionOk)
    else
      var attempt := SerialConnect(s, tryOpen(comLink));
      match attempt.thrown
      case None => ConnectStep(attempt.source, ConnectionOk)
      case Some(PortInUseException) => ConnectStep(attempt.source, ConnectionBusy)
      case Some(IOException) => ConnectStep(attempt.source, ConnectionIoError)
      case Some(NoSuchPortException) => ConnectStep(attempt.source, ConnectionError)
      case Some(OtherException) => ConnectStep(attempt.source, ConnectionError)
  }

  /** The source keeps the interface's promise for `connect`. */
  lemma ConnectMeetsContract(s: SerialSource, comLink: string, tryOpen: string -> OpenOutcome)
    ensures ConnectContract(s.isConnected, Connect(s, comLink, tryOpen).source.isConnected,
                            Connect(s, comLink, tryOpen).result)
  {
  }

  /** Success is not connection: an owned or non-serial port reports
      success and leaves the source disconnected. */
  lemma OkWithoutConnection(s: SerialSource, comLink: string, tryOpen: string -> OpenOutcome)
    requires !s.isConnected && tryOpen(comLink) in {AlreadyOwned, NotSerial}
    ensures Connect(s, comLink, tryOpen).result == ConnectionOk
    ensures !Connect(s, comLink, tryOpen).source.isConnected
  {
  }

  /** A connected source ignores which port is named and how opening it
      would end. */
  lemma ConnectedIgnoresPort(s: SerialSource, a: string, b: string, f: string -> OpenOutcome, g: string -> OpenOutcome)
    requires s.isConnected
    ensures Connect(s, a, f) == Connect(s, b, g)
  {
  }

  // ---------------------------------------------------------------- disconnect

  /** How closing the input stream ends; closing the port itself throws
      nothing the source catches. */
  datatype CloseOutcome = Closed | InStreamCloseFailed

  /** `disconnect`: closes the stream and the port of a connected source; a
      failing stream close is caught and leaves the source connected. */
  function Disconnect(s: SerialSource, close: CloseOutcome): (r: SerialSource)
    ensures r.bufferLength == s.bufferLength
    ensures !s.isConnected ==> r == s
    ensures s.isConnected ==> (r.isConnected <==> close == InStreamCloseFailed)
  {
    if s.isConnected then
      match close
      case Closed => s.(isConnected := false)
      case InStreamCloseFailed => s
    else
      s
  }

  /** The source keeps the interface's promise for `disconnect`. */
  lemma DisconnectMeetsContract(s: SerialSource, close: CloseOutcome)
    ensures DisconnectContract(s.isConnected, Disconnect(s, close).isConnected)
  {
  }

  /** A disconnect that closes cleanly can be repeated harmlessly. */
  lemma DisconnectIdempotent(s: SerialSource, first: CloseOutcome, second: CloseOutcome)
    requires first == Closed
    ensures Disconnect(Disconnect(s, first), second) == Disconnect(s, first)
  {
  }

  /** Connecting to a port that opens, then disconnecting cleanly, returns
      the source to where it started. */
  lemma ConnectDisconnectRoundTrip(s: SerialSource, comLink: string, tryOpen: string -> OpenOutcome)
    requires !s.isConnected && tryOpen(comLink) == Opened
    ensures Disconnect(Connect(s, comLink, tryOpen).source, Closed) == s
  {
  }

  // ---------------------------------------------------------------- events

  /** One `inStream.read()`: a byte, or an `IOException`. The end of the
      input sequence is the -1 that ends the stream. */
  datatype Read = Data(b: Byte) | ReadError

  /** What one data-available event does: deliver a line and leave `rest`
      unread; fail on a read error (caught, nothing delivered); or overflow
      the buffer (an uncaught index error, nothing delivered). */
  datatype EventResult =
    | Delivered(line: seq<Byte>, rest: seq<Read>)
    | ReadFailed(rest: seq<Read>)
    | Overflow(rest: seq<Read>)

  predicate IsLineByte(r: Read) {
    r.Data? && r.b != NewLine
  }

  /** The index of the first read that ends the line: a newline, a read
      error, or the end of the input. */
  function LineEnd(input: seq<Read>): (n: nat)
    ensures n <= |input|
    ensures forall k :: 0 <= k < n ==> IsLineByte(input[k])
    ensures n < |input| ==> !IsLineByte(input[n])
    decreases |input|
  {
    if input == [] || !IsLineByte(input[0]) then 0
    else 1 + LineEnd(input[1..])
  }

  /** The bytes of reads that all carry data. */
  function Bytes(rs: seq<Read>): (r: seq<Byte>)
    requires forall k :: 0 <= k < |rs| ==> rs[k].Data?
    ensures |r| == |rs| && forall k :: 0 <= k < |r| ==> r[k] == rs[k].b
  {
    seq(|rs|, k requires 0 <= k < |rs| => rs[k].b)
  }

  /** Reference definition of one event with a buffer of `capacity` bytes:
      the line is what comes before the first newline, read error or end of
      input; more than `capacity` line bytes overflow once the first byte
      beyond capacity has been read. */
  function LineEvent(capacity: nat, input: seq<Read>): EventResult {
    var n := LineEnd(input);
    if n > capacity then Overflow(input[capacity + 1..])
    else if n == |input| then Delivered(Bytes(input[..n]), [])
    else if input[n].Data? then Delivered(Bytes(input[..n]), input[n + 1..])
    else ReadFailed(input[n + 1..])
  }

  /** `serialEvent`: reads until a newline or the end of the stream, storing
      each byte at the next free buffer position, and hands over the bytes
      stored. Each event starts writing at the front of the buffer. */
  method SerialEvent(s: SerialSource, input: seq<Read>) returns (r: EventResult)
    ensures r == LineEvent(s.bufferLength, input)
  {
    var buffer: seq<Byte> := seq(s.bufferLength, _ => 0);
    var len := 0;
    while true
      invariant len <= |input| && len <= |buffer| == s.bufferLength
      invariant forall k :: 0 <= k < len ==> IsLineByte(input[k])
      invariant buffer[..len] == Bytes(input[..len])
      decreases |input| - len
    {
      if len == |input| {
        return Delivered(buffer[..len], []);
      }
      var read := input[len];
      match read
      case ReadError =>
        return ReadFailed(input[len + 1..]);
      case Data(b) =>
        if b == NewLine {
          return Delivered(buffer[..len], input[len + 1..]);
        }
        if len == |buffer| {
          return Overflow(input[len + 1..]);
        }
        buffer := buffer[len := b];
        len := len + 1;
    }
  }

  /** The reads that carry a line: its bytes, then a newline. */
  function Framed(line: seq<Byte>): (r: seq<Read>)
    ensures |r| == |line| + 1
  {
    seq(|line|, k requires 0 <= k < |line| => Data(line[k])) + [Data(NewLine)]
  }

  predicate NoNewLine(line: seq<Byte>) {
    forall k :: 0 <= k < |line| ==> line[k] != NewLine
  }

  /** Round trip: an event on a framed line that fits the buffer delivers
      exactly that line and leaves what follows unread. */
  lemma FramedLineDelivered(capacity: nat, line: seq<Byte>, rest: seq<Read>)
    requires NoNewLine(line) && |line| <= capacity
    ensures LineEvent(capacity, Framed(line) + rest) == Delivered(line, rest)
  {
    var input := Framed(line) + rest;
    LineEndAt(input, |line|);
    assert input[..|line|] == Framed(line)[..|line|];
    assert input[|line| + 1..] == rest;
  }

  lemma LineEndAt(input: seq<Read>, n: nat)
    requires n <= |input|
    requires forall k :: 0 <= k < n ==> IsLineByte(input[k])
    requires n < |input| ==> !IsLineByte(input[n])
    ensures LineEnd(input) == n
  {
  }

  /** Input that ends before any newline is delivered whole, even when it
      is empty. */
  lemma UnterminatedDelivered(capacity: nat, line: seq<Byte>)
    requires NoNewLine(line) && |line| <= capacity
    ensures LineEvent(capacity, seq(|line|, k requires 0 <= k < |line| => Data(line[k]))) == Delivered(line, [])
  {
    var input := seq(|line|, k requires 0 <= k < |line| => Data(line[k]));
    LineEndAt(input, |line|);
    assert input[..|line|] == input;
  }

  /** A delivered line holds no newline and fits the buffer; every outcome
      leaves a suffix of the input unread, strictly shorter unless the input
      was empty. */
  lemma EventShape(capacity: nat, input: seq<Read>)
    ensures LineEvent(capacity, input).Delivered? ==>
      NoNewLine(LineEvent(capacity, input).line) && |LineEvent(capacity, input).line| <= capacity
    ensures LineEvent(capacity, input).rest == input[|input| - |LineEvent(capacity, input).rest|..]
    ensures input != [] ==> |LineEvent(capacity, input).rest| < |input|
  {
  }

  /** Overflow happens exactly when the first `capacity + 1` reads are all
      line bytes. */
  lemma OverflowExactly(capacity: nat, input: seq<Read>)
    ensures LineEvent(capacity, input).Overflow? <==>
      capacity < |input| && forall k :: 0 <= k <= capacity ==> IsLineByte(input[k])
  {
  }

  // ---------------------------------------------------------------- streams

  /** The lines a stream yields when every event is handled in turn until
      nothing is left to read. */
  function Drain(capacity: nat, input: seq<Read>): seq<seq<Byte>>
    decreases |input|
  {
    if input == [] then []
    else
      EventShape(capacity, input);
      match LineEvent(capacity, input)
      case Delivered(line, rest) => [line] + Drain(capacity, rest)
      case ReadFailed(rest) => Drain(capacity, rest)
      case Overflow(rest) => Drain(capacity, rest)
  }

  /** The reads that carry a sequence of lines, each followed by a newline. */
  function FramedLines(lines: seq<seq<Byte>>): seq<Read>
    decreases |lines|
  {
    if lines == [] then [] else Framed(lines[0]) + FramedLines(lines[1..])
  }

  /** Round trip: draining the framing of lines that fit the buffer and hold
      no newline yields exactly those lines. */
  lemma {:induction false} DrainFramedLines(capacity: nat, lines: seq<seq<Byte>>)
    requires forall i :: 0 <= i < |lines| ==> NoNewLine(lines[i]) && |lines[i]| <= capacity
    ensures Drain(capacity, FramedLines(lines)) == lines
    decreases |lines|
  {
    if lines != [] {
      FramedLineDelivered(capacity, lines[0], FramedLines(lines[1..]));
      DrainFramedLines(capacity, lines[1..]);
      assert lines == [lines[0]] + lines[1..];
    }
  }
}

=== FILE: visualizacion_frame.dfy ===
/** The main window's data path and controls, without the widgets: a line
    of text goes through the parser and one EMA filter per axis; the alpha
    slider and the alpha text box set the three filters' coefficient; and
    the start and stop buttons drive the data source and the connection
    indicator. */
module VisualizacionFrame {
  import opened JavaText
  import EMAFilter
  import AccDataParser
  import opened DataCollectionInterface
  import SerialDataCollection

  /** Initial EMA coefficient of all three filters. */
  const InitAlpha: real := 0.5

  /** The alpha slider's range and starting position. */
  const SliderMin: int := 0
  const SliderMax: int := 100
  const SliderInit: int := 50

  type SliderValue = v: int | SliderMin <= v <= SliderMax witness SliderInit

  /** The connection indicator's three icons. */
  datatype Indicator = ConnOn | ConnErr | ConnOff

  datatype Frame = Frame(
    parser: AccDataParser.Parser,
    filterX: EMAFilter.EMA,
    filterY: EMAFilter.EMA,
    filterZ: EMAFilter.EMA,
    slider: SliderValue,
    alphaText: string,
    indicator: Indicator)

  /** The three filters share one coefficient. */
  predicate SameAlpha(f: Frame) {
    f.filterY.alpha == f.filterX.alpha && f.filterZ.alpha == f.filterX.alpha
  }

  /** The text box shows the slider's position as `Double.toString` writes
      it in hundredths. */
  predicate TextShowsSlider(f: Frame) {
    f.alphaText == FormatHundredths(f.slider)
  }

  /** Whenever the text box shows the slider, it reads back as the slider's
      alpha. */
  lemma TextReadsBackAsSlider(f: Frame)
    requires TextShowsSlider(f)
    ensures ParseDouble(f.alphaText) == Some(f.slider as real / 100.0)
  {
    ParseFormatHundredths(f.slider);
  }

  /** The window as built: a tab-separated parser, three fresh filters with
      alpha 0.5, the slider at 50, the text "0.5" and the indicator off. */
  function Init(): (f: Frame)
    ensures f.parser.separator == "\t"
    ensures f.filterX.isFirst && f.filterY.isFirst && f.filterZ.isFirst
    ensures SameAlpha(f) && f.filterX.alpha == InitAlpha
    ensures f.slider == SliderInit && f.indicator == ConnOff
    ensures TextShowsSlider(f)
  {
    var f := Frame(AccDataParser.New(), EMAFilter.New(InitAlpha), EMAFilter.New(InitAlpha),
                   EMAFilter.New(InitAlpha), SliderInit, "0.5", ConnOff);
    assert FormatNat(0) == "0";
    f
  }

  /** `JSlider.setValue`: a value outside the range is clamped into it. */
  function Clamp(v: int): (r: SliderValue)
    ensures SliderMin <= v <= SliderMax ==> r == v
    ensures v < SliderMin ==> r == SliderMin
    ensures v > SliderMax ==> r == SliderMax
  {
    if v < SliderMin then SliderMin else if v > SliderMax then SliderMax else v
  }

  datatype Received = Received(frame: Frame, drawn: Option<seq<real>>)

  /** `receiveNewData`: a line that parses feeds x, y and z to their own
      filters, draws the three outputs and lights the indicator; a line that
      does not parse only turns the indicator to error. */
  function ReceiveNewData(f: Frame, data: string): (r: Received)
    ensures r.frame.parser == f.parser && r.frame.slider == f.slider && r.frame.alphaText == f.alphaText
    ensures AccDataParser.Parse(f.parser, data).None? ==>
      r.frame == f.(indicator := ConnErr) && r.drawn.None?
    ensures AccDataParser.Parse(f.parser, data).Some? ==>
      var xyz := AccDataParser.Parse(f.parser, data).value;
      && r.frame.indicator == ConnOn
      && r.frame.filterX == EMAFilter.Filter(f.filterX, xyz[0]).filter
      && r.frame.filterY == EMAFilter.Filter(f.filterY, xyz[1]).filter
      && r.frame.filterZ == EMAFilter.Filter(f.filterZ, xyz[2]).filter
      && r.drawn == Some([EMAFilter.Filter(f.filterX, xyz[0]).output,
                          EMAFilter.Filter(f.filterY, xyz[1]).output,
                          EMAFilter.Filter(f.filterZ, xyz[2]).output])
  {
    match AccDataParser.Parse(f.parser, data)
    case None => Received(f.(indicator := ConnErr), None)
    case Some(xyz) =>
      var x := EMAFilter.Filter(f.filterX, xyz[0]);
      var y := EMAFilter.Filter(f.filterY, xyz[1]);
      var z := EMAFilter.Filter(f.filterZ, xyz[2]);
      Received(f.(filterX := x.filter, filterY := y.filter, filterZ := z.filter, indicator := ConnOn),
               Some([x.output, y.output, z.output]))
  }

  /** `alphaSliderStateChanged` after the slider is moved to `value`: all
      three filters take the slider's position in hundredths, which the
      text box then shows. */
  function AlphaSliderStateChanged(f: Frame, value: int): (r: Frame)
    ensures r.slider == Clamp(value)
    ensures SameAlpha(r) && r.filterX.alpha == r.slider as real / 100.0
    ensures TextShowsSlider(r)
    ensures r.filterX.isFirst == f.filterX.isFirst && r.filterX.previousDatum == f.filterX.previousDatum
    ensures r.filterY.isFirst == f.filterY.isFirst && r.filterY.previousDatum == f.filterY.previousDatum
    ensures r.filterZ.isFirst == f.filterZ.isFirst && r.filterZ.previousDatum == f.filterZ.previousDatum
    ensures r.parser == f.parser && r.indicator == f.indicator
  {
    var slider := Clamp(value);
    var alpha := slider as real / 100.0;
    f.(filterX := EMAFilter.SetAlpha(f.filterX, alpha),
       filterY := EMAFilter.SetAlpha(f.filterY, alpha),
       filterZ := EMAFilter.SetAlpha(f.filterZ, alpha),
       slider := slider,
       alphaText := FormatHundredths(slider))
  }

  /** A typed number becomes every filter's coefficient, unchecked; the
      text box keeps what was typed and the slider has not moved yet. */
  function AcceptAlpha(f: Frame, alpha: real, typed: string): (r: Frame)
    ensures r.parser == f.parser && r.indicator == f.indicator && r.alphaText == typed
    ensures r.slider == f.slider
    ensures SameAlpha(r) && r.filterX.alpha == alpha
    ensures r.filterX == EMAFilter.SetAlpha(f.filterX, alpha)
    ensures r.filterY == EMAFilter.SetAlpha(f.filterY, alpha)
    ensures r.filterZ == EMAFilter.SetAlpha(f.filterZ, alpha)
  {
    f.(filterX := EMAFilter.SetAlpha(f.filterX, alpha),
       filterY := EMAFilter.SetAlpha(f.filterY, alpha),
       filterZ := EMAFilter.SetAlpha(f.filterZ, alpha),
       alphaText := typed)
  }

  /** The slider position a typed alpha asks for: its hundredths, truncated
      by `intValue` and clamped by `JSlider.setValue`. */
  function TypedPosition(alpha: real): (v: SliderValue)
    ensures 0.0 <= alpha <= 1.0 ==> v as real <= alpha * 100.0 < v as real + 1.0
    ensures alpha >= 1.0 ==> v == SliderMax
    ensures alpha <= 0.0 ==> v == SliderMin
  {
    Clamp(IntValue(alpha * 100.0))
  }

  /** Text that is not a number is replaced by the slider's value, which
      reads back as the slider's hundredths; nothing else changes. */
  function RejectAlpha(f: Frame): (r: Frame)
    ensures r.filterX == f.filterX && r.filterY == f.filterY && r.filterZ == f.filterZ
    ensures r.slider == f.slider && r.parser == f.parser && r.indicator == f.indicator
    ensures TextShowsSlider(r)
  {
    f.(alphaText := FormatHundredths(f.slider))
  }

  /** `alphaTextActionPerformed` once `typed` has been entered: a number is
      given to all three filters and then sent to the slider; if that moves
      the slider, the slider's own change handler runs at once and overrides
      the filters and the text with the new position. Anything else leaves
      the filters alone and puts the slider's value back in the text box. */
  function AlphaTextActionPerformed(f: Frame, typed: string): (r: Frame)
    ensures ParseDouble(typed).Some? && TypedPosition(ParseDouble(typed).value) == f.slider ==>
      r == AcceptAlpha(f, ParseDouble(typed).value, typed)
    ensures ParseDouble(typed).Some? && TypedPosition(ParseDouble(typed).value) != f.slider ==>
      r == AlphaSliderStateChanged(AcceptAlpha(f, ParseDouble(typed).value, typed), TypedPosition(ParseDouble(typed).value))
    ensures ParseDouble(typed).None? ==> r == RejectAlpha(f)
  {
    match ParseDouble(typed)
    case Some(alpha) =>
      var accepted := AcceptAlpha(f, alpha, typed);
      var position := TypedPosition(alpha);
      if position == f.slider then accepted else AlphaSliderStateChanged(accepted, position)
    case None => RejectAlpha(f)
  }

  /** The icon the start button shows for each connection result. */
  function ConnectIndicator(result: ConnectionResult): (i: Indicator)
    ensures i == ConnOn <==> result == ConnectionOk
    ensures i == ConnErr <==> result == ConnectionError
    ensures i == ConnOff <==> result in {ConnectionBusy, ConnectionIoError}
  {
    match result
    case ConnectionOk => ConnOn
    case ConnectionError => ConnErr
    case ConnectionBusy => ConnOff
    case _ => ConnOff
  }

  // ---------------------------------------------------------------- session

  /** The window together with the data source it drives. */
  datatype Session = Session(frame: Frame, source: SerialDataCollection.SerialSource)

  function NewSession(): (s: Session)
    ensures s.frame == Init() && !s.source.isConnected
  {
    Session(Init(), SerialDataCollection.New())
  }

  /** The start button: connect to the selected port and show the result. */
  function StartPressed(s: Session, selected: string, tryOpen: string -> SerialDataCollection.OpenOutcome): (r: Session)
    ensures r.source == SerialDataCollection.Connect(s.source, selected, tryOpen).source
    ensures r.frame == s.frame.(indicator := ConnectIndicator(SerialDataCollection.Connect(s.source, selected, tryOpen).result))
  {
    var step := SerialDataCollection.Connect(s.source, selected, tryOpen);
    Session(s.frame.(indicator := ConnectIndicator(step.result)), step.source)
  }

  /** The stop button: disconnect and turn the indicator off, whether or not
      the disconnection succeeded. */
  function StopPressed(s: Session, close: SerialDataCollection.CloseOutcome): (r: Session)
    ensures r.source == SerialDataCollection.Disconnect(s.source, close)
    ensures r.frame == s.frame.(indicator := ConnOff)
  {
    Session(s.frame.(indicator := ConnOff), SerialDataCollection.Disconnect(s.source, close))
  }

  /** Closing the window disconnects and touches nothing else. */
  function WindowClosing(s: Session, close: SerialDataCollection.CloseOutcome): (r: Session)
    ensures r.source == SerialDataCollection.Disconnect(s.source, close) && r.frame == s.frame
  {
    Session(s.frame, SerialDataCollection.Disconnect(s.source, close))
  }

  /** The string a buffer of bytes decodes to, one character per byte. */
  function Decode(line: seq<SerialDataCollection.Byte>): (r: string)
    ensures |r| == |line| && forall k :: 0 <= k < |r| ==> r[k] as int == line[k]
  {
    seq(|line|, k requires 0 <= k < |line| => line[k] as char)
  }

  /** The bytes of a string whose characters each fit one byte. */
  function Encode(text: string): (r: seq<SerialDataCollection.Byte>)
    requires forall k :: 0 <= k < |text| ==> text[k] as int < 256
    ensures |r| == |text| && forall k :: 0 <= k < |r| ==> r[k] == text[k] as int
  {
    seq(|text|, k requires 0 <= k < |text| => text[k] as int)
  }

  /** Decoding undoes encoding. */
  lemma DecodeEncode(text: string)
    requires forall k :: 0 <= k < |text| ==> text[k] as int < 256
    ensures Decode(Encode(text)) == text
  {
  }

  datatype EventOutcome = EventOutcome(session: Session, drawn: Option<seq<real>>, rest: seq<SerialDataCollection.Read>)

  /** One data-available event: the line the source assembles, if any, is
      handed to `receiveNewData`. */
  function DataAvailable(s: Session, input: seq<SerialDataCollection.Read>): (r: EventOutcome)
    ensures r.session.source == s.source
    ensures SerialDataCollection.LineEvent(s.source.bufferLength, input).Delivered? ==>
      var line := Decode(SerialDataCollection.LineEvent(s.source.bufferLength, input).line);
      r.session.frame == ReceiveNewData(s.frame, line).frame && r.drawn == ReceiveNewData(s.frame, line).drawn
    ensures !SerialDataCollection.LineEvent(s.source.bufferLength, input).Delivered? ==>
      r.session == s && r.drawn.None?
    ensures r.rest == SerialDataCollection.LineEvent(s.source.bufferLength, input).rest
  {
    match SerialDataCollection.LineEvent(s.source.bufferLength, input)
    case Delivered(line, rest) =>
      var received := ReceiveNewData(s.frame, Decode(line));
      EventOutcome(Session(received.frame, s.source), received.drawn, rest)
    case ReadFailed(rest) => EventOutcome(s, None, rest)
    case Overflow(rest) => EventOutcome(s, None, rest)
  }

  // ---------------------------------------------------------------- properties

  /** New data keeps the three filters on one coefficient. */
  lemma ReceiveKeepsSameAlpha(f: Frame, data: string)
    requires SameAlpha(f)
    ensures SameAlpha(ReceiveNewData(f, data).frame)
  {
    var r := ReceiveNewData(f, data).frame;
    if AccDataParser.Parse(f.parser, data).Some? {
      assert r.filterX.alpha == f.filterX.alpha;
      assert r.filterY.alpha == f.filterY.alpha;
      assert r.filterZ.alpha == f.filterZ.alpha;
    }
  }

  /** Both alpha controls leave the three filters on one coefficient. */
  lemma ControlsSetSameAlpha(f: Frame, value: int, typed: string)
    requires SameAlpha(f)
    ensures SameAlpha(AlphaSliderStateChanged(f, value))
    ensures SameAlpha(AlphaTextActionPerformed(f, typed))
  {
  }

  /** A failed parse changes no filter; a successful one changes each
      filter only through its own axis. */
  lemma AxesIndependent(f: Frame, data: string)
    ensures AccDataParser.Parse(f.parser, data).Some? ==>
              ReceiveNewData(f, data).frame.filterX ==
              EMAFilter.Filter(f.filterX, AccDataParser.Parse(f.parser, data).value[0]).filter
    ensures AccDataParser.Parse(f.parser, data).Some? ==>
              ReceiveNewData(f, data).frame.filterY ==
              EMAFilter.Filter(f.filterY, AccDataParser.Parse(f.parser, data).value[1]).filter
    ensures AccDataParser.Parse(f.parser, data).Some? ==>
              ReceiveNewData(f, data).frame.filterZ ==
              EMAFilter.Filter(f.filterZ, AccDataParser.Parse(f.parser, data).value[2]).filter
    ensures ReceiveNewData(f.(filterY := f.filterX, filterZ := f.filterX), data).frame.filterX ==
      ReceiveNewData(f, data).frame.filterX
    ensures ReceiveNewData(f.(filterX := f.filterY, filterZ := f.filterY), data).frame.filterY ==
      ReceiveNewData(f, data).frame.filterY
    ensures ReceiveNewData(f.(filterX := f.filterZ, filterY := f.filterZ), data).frame.filterZ ==
      ReceiveNewData(f, data).frame.filterZ
  {
  }

  /** A fresh window draws the first well-formed line exactly as
      calibrated: each filter's first output is its input. */
  lemma FirstLineDrawnExactly(codes: seq<nat>)
    requires |codes| >= 3
    ensures ReceiveNewData(Init(), AccDataParser.FormatLine(codes, "\t")).drawn ==
      Some([AccDataParser.ToG(codes[0] as real), AccDataParser.ToG(codes[1] as real),
            AccDataParser.ToG(codes[2] as real)])
    ensures ReceiveNewData(Init(), AccDataParser.FormatLine(codes, "\t")).frame.indicator == ConnOn
  {
    assert !IsDigit("\t"[0]);
    AccDataParser.ParseFormatLine(codes, "\t");
  }

  /** Text that does not parse shows the error icon and keeps the filters. */
  lemma BadLineKeepsFilters(f: Frame, data: string)
    requires AccDataParser.Parse(f.parser, data).None?
    ensures ReceiveNewData(f, data).frame.indicator == ConnErr
    ensures ReceiveNewData(f, data).frame.filterX == f.filterX
    ensures ReceiveNewData(f, data).frame.filterY == f.filterY
    ensures ReceiveNewData(f, data).frame.filterZ == f.filterZ
  {
  }

  /** For a typed alpha in [0, 1] the slider lands on its truncated
      hundredths, and the filters end at or above that position's alpha and
      within one hundredth of it, whichever handler had the last word. */
  lemma SliderTracksTypedAlpha(f: Frame, typed: string)
    requires ParseDouble(typed).Some? && 0.0 <= ParseDouble(typed).value <= 1.0
    ensures var r := AlphaTextActionPerformed(f, typed);
      r.slider == TypedPosition(ParseDouble(typed).value) &&
      r.slider as real / 100.0 <= r.filterX.alpha < r.slider as real / 100.0 + 0.01
  {
  }

  /** A typed alpha survives only if its truncated hundredths are where the
      slider already is; then the text box keeps what was typed. */
  lemma TypedAlphaKept(f: Frame, typed: string)
    requires ParseDouble(typed).Some? && TypedPosition(ParseDouble(typed).value) == f.slider
    ensures var r := AlphaTextActionPerformed(f, typed);
      SameAlpha(r) && r.filterX.alpha == ParseDouble(typed).value && r.alphaText == typed && r.slider == f.slider
  {
  }

  /** Otherwise the slider moves, its handler runs, and the filters and the
      text end up at the slider's hundredths: the typed digits beyond the
      hundredths are lost. */
  lemma TypedAlphaOverridden(f: Frame, typed: string)
    requires ParseDouble(typed).Some? && TypedPosition(ParseDouble(typed).value) != f.slider
    ensures var r := AlphaTextActionPerformed(f, typed);
      SameAlpha(r) && r.slider == TypedPosition(ParseDouble(typed).value) &&
      r.filterX.alpha == r.slider as real / 100.0 && TextShowsSlider(r)
  {
  }

  /** The filters can still be driven outside [0, 1]: typing 2 into a fresh
      window moves the slider to 100 and sets alpha 1; typing 2 again leaves
      the slider where it is, so the filters keep alpha 2. */
  lemma OutOfRangeAlphaReachable()
    ensures AlphaTextActionPerformed(Init(), "2").filterX.alpha == 1.0
    ensures AlphaTextActionPerformed(Init(), "2").slider == SliderMax
    ensures AlphaTextActionPerformed(AlphaTextActionPerformed(Init(), "2"), "2").filterX.alpha == 2.0
    ensures SameAlpha(AlphaTextActionPerformed(AlphaTextActionPerformed(Init(), "2"), "2"))
  {
    assert FormatNat(2) == "2";
    ParseFormatNat(2);
  }

  /** With the slider at 100, an alpha at or above 1 is kept by the filters;
      a later entry that is not a number then shows "1.0", although the
      filters still use the typed alpha. */
  lemma TextOutOfRangeDesync(f: Frame, typed: string, bad: string)
    requires f.slider == SliderMax
    requires ParseDouble(typed).Some? && ParseDouble(typed).value >= 1.0
    requires ParseDouble(bad).None?
    ensures var r := AlphaTextActionPerformed(AlphaTextActionPerformed(f, typed), bad);
      r.filterX.alpha == ParseDouble(typed).value && r.slider == SliderMax &&
      ParseDouble(r.alphaText) == Some(1.0)
  {
    var r := AlphaTextActionPerformed(AlphaTextActionPerformed(f, typed), bad);
    TextReadsBackAsSlider(r);
  }

  /** An alpha at or below 0 sends the slider to 0; the filters keep it if
      the slider was already there, and take 0 otherwise. */
  lemma NegativeAlphaSliderAtZero(f: Frame, typed: string)
    requires ParseDouble(typed).Some? && ParseDouble(typed).value <= 0.0
    ensures AlphaTextActionPerformed(f, typed).slider == SliderMin
    ensures f.slider == SliderMin ==> AlphaTextActionPerformed(f, typed).filterX.alpha == ParseDouble(typed).value
    ensures f.slider != SliderMin ==> AlphaTextActionPerformed(f, typed).filterX.alpha == 0.0
  {
  }

  /** The start button never shows ON for a failed connection, and always
      shows ON for a source already connected. */
  lemma StartIndicatorHonest(s: Session, selected: string, tryOpen: string -> SerialDataCollection.OpenOutcome)
    ensures StartPressed(s, selected, tryOpen).frame.indicator == ConnOn <==>
      !IsFailure(SerialDataCollection.Connect(s.source, selected, tryOpen).result)
    ensures s.source.isConnected ==> StartPressed(s, selected, tryOpen).frame.indicator == ConnOn
  {
  }

  /** A stream close that fails is swallowed: the stop button still turns
      the indicator off while the port stays connected, the next start
      lights it again without opening anything, and closing the window in
      that state leaves the port connected too. */
  lemma StopAfterFailedClose(s: Session, selected: string, tryOpen: string -> SerialDataCollection.OpenOutcome)
    requires s.source.isConnected
    ensures StopPressed(s, SerialDataCollection.InStreamCloseFailed).frame.indicator == ConnOff
    ensures StopPressed(s, SerialDataCollection.InStreamCloseFailed).source.isConnected
    ensures StartPressed(StopPressed(s, SerialDataCollection.InStreamCloseFailed), selected, tryOpen).frame.indicator == ConnOn
    ensures WindowClosing(s, SerialDataCollection.InStreamCloseFailed).source.isConnected
    ensures !StopPressed(s, SerialDataCollection.Closed).source.isConnected
  {
    StartIndicatorHonest(StopPressed(s, SerialDataCollection.InStreamCloseFailed), selected, tryOpen);
  }

  /** A line sent over the serial link, newline-terminated and within the
      buffer, is handed to the window exactly as sent. */
  lemma SentLineReceived(s: Session, text: string, rest: seq<SerialDataCollection.Read>)
    requires forall k :: 0 <= k < |text| ==> text[k] as int < 256 && text[k] != '\n'
    requires |text| <= s.source.bufferLength
    ensures DataAvailable(s, SerialDataCollection.Framed(Encode(text)) + rest).session.frame ==
      ReceiveNewData(s.frame, text).frame
    ensures DataAvailable(s, SerialDataCollection.Framed(Encode(text)) + rest).rest == rest
  {
    var line := Encode(text);
    assert SerialDataCollection.NoNewLine(line) by {
      forall k | 0 <= k < |line|
        ensures line[k] != SerialDataCollection.NewLine
      {
        assert text[k] != '\n';
      }
    }
    SerialDataCollection.FramedLineDelivered(s.source.bufferLength, line, rest);
    DecodeEncode(text);
  }
}
